=== FILE: README.md ===
# Morganite blob cache, modelled in Dafny

Morganite is an Android app that runs a local Blossom blob cache. Blossom
is a protocol for storing files addressed by the SHA-256 of their
content. The app's HTTP server answers `GET`, `HEAD` and `OPTIONS` for
`/<sha256>[.ext]`:

- A blob that is already in the cache directory is served from disk.
- On a local miss, the server fetches the blob from other Blossom servers:
  - first from the `xs` hint servers in the query;
  - then from the servers each `as` author publishes.
- Each fetched blob is streamed to the client and copied into the cache
  at the same time.
- The cache directory is pruned oldest-first once it grows past 1 GiB.

This project models that request handling and the blob store as pure
functions over immutable data, with two imperative loops proved against
those functions. The model covers `CustomHttpServer.kt` and
`service/AndroidFileStore.kt`.

| file | module | what it models |
|---|---|---|
| `base.dfy` | `Base` | `Option`, `Result`, the JVM signed byte, 32-byte digests, SHA-256 as a function parameter |
| `hex.dfy` | `Hex` | the `"%02x"` naming of digests, with its inverse |
| `text.dfy` | `Text` | `startsWith`, `contains`, `Long.toString` |
| `paths.dfy` | `Paths` | HEAD's `extractHash`, GET's unanchored regex, `buildUrl` |
| `transport.dfy` | `Transport` | `updateClients` and the proxied/direct choice |
| `blobs.dfy` | `Blobs` | the blob directory as a map from name to (bytes, mtime), plus a listing order |
| `eviction.dfy` | `Eviction` | the mtime sort and the deletion loop of `pruneIfNeeded` |
| `store.dfy` | `Store` | `AndroidFileStore`: lookup-with-touch, `saveBlob`, `moveFile`, `pruneIfNeeded`, `updateSize` |
| `tee.dfy` | `Tee` | the copy loop that feeds the digest, the temporary file and the client |
| `retrieval.dfy` | `Retrieval` | `tryFetchAndStream` and the walk over candidate servers |
| `router.dfy` | `Router` | the GET / HEAD / OPTIONS decisions |

Everything outside the two files is a parameter:

- the network is a function from (URL, route) to an exchange;
- the relay lookup of an author's servers is a function from pubkey to a
  server list;
- the filesystem's failures are an `FsOracle`;
- the clock is `now`;
- MIME detection is `detect`;
- SHA-256 is any function from bytes to 32 bytes.

The deletion loop (`Eviction.PruneLoop`) and the copy loop (`Tee.TeeLoop`)
are methods with loop invariants. Each is proved to compute exactly the
function the rest of the model uses: `Eviction.Evict` and `Tee.Expected`.

Behaviour of the code that the model keeps, on purpose:

- A client that disconnects mid-stream ("Broken pipe") does not stop the
  walk over candidate servers. The exception rethrown at
  `CustomHttpServer.kt:306` is caught by the outer handler at line 311,
  so the attempt returns `false` and the next server is tried. The comment
  at line 304 ("throw to stop everything") says the rethrow was meant to
  end the walk, but nothing between it and the route lets it through. The
  model follows the code (`Retrieval.BrokenPipeMovesOn`).
- A downloaded blob is committed under the *requested* hash. The digest
  computed during the copy is never compared with it. The model commits
  without a check, and `Retrieval.CommitIgnoresDigest` shows that this can
  leave a file whose name is not the hash of its content.
- The local-hit `ETag` header is the bare hash, but `If-None-Match` is
  compared with the quoted hash. A client that echoes the `ETag` it was
  given therefore never gets a 304 (`Router.EchoedETagNeverRevalidates`).
- HEAD and GET accept different paths:
  - HEAD takes the 64 digits only when they open the last path segment.
  - GET takes the first 64-digit run anywhere in the path, and truncates
    a longer run.
- Java's `$` also matches before a single final line terminator. The HEAD
  pattern therefore accepts `/<hash>\n`, and the model does too. On
  Android, `java.util.regex` is ICU's, whose line terminators also include
  vertical tab and form feed; the model uses that set
  (`Paths.HeadAcceptsFinalTerminator`).
- The temporary file leaks if copying the upstream headers throws, because
  that happens outside the `try` that deletes it (`Setup.FailsAfterTempFile`).
  `Retrieval.TryFetchAndStream` leaves a temporary file exactly in that case,
  and `Retrieval.TryServersLeaks` and `Retrieval.RetrieveLeaks` count the
  files a walk leaves behind: one per attempt that failed that way.
- An attempt can stream the whole body with status 200 and then fail in
  `moveFile` (`Retrieval.MoveFailureAfterFullStream`). The walk then goes on
  and, if every candidate fails, the route asks for 404 on a response that
  was already written.

## Model

| member | source | states |
|---|---|---|
| Hex.Unsigned | app/src/main/java/com/greenart7c3/morganite/service/AndroidFileStore.kt:78 | `%x` prints a signed byte as the value congruent to it modulo 256 in 0..255 |
| Hex.ByteToHex | app/src/main/java/com/greenart7c3/morganite/service/AndroidFileStore.kt:78 | `"%02x"` prints a byte as two lowercase hex digits whose value is the byte read as unsigned |
| Hex.Encode | app/src/main/java/com/greenart7c3/morganite/service/AndroidFileStore.kt:76-79 | the name of a digest has two characters per byte, all from `[0-9a-f]` |
| Hex.Decode | app/src/main/java/com/greenart7c3/morganite/service/AndroidFileStore.kt:76-79 | a string can be read back as bytes exactly when it has even length and is lowercase hex |
| Hex.DecodeEncode | app/src/main/java/com/greenart7c3/morganite/service/AndroidFileStore.kt:76-79 | reading a digest's name back gives the digest (round trip) |
| Hex.EncodeDecode | app/src/main/java/com/greenart7c3/morganite/service/AndroidFileStore.kt:76-79 | every even-length lowercase hex string is the name of exactly the bytes it decodes to |
| Hex.EncodeInjective | app/src/main/java/com/greenart7c3/morganite/service/AndroidFileStore.kt:76-79 | different digests get different names |
| Hex.DigestNameIsHash | app/src/main/java/com/greenart7c3/morganite/service/AndroidFileStore.kt:44-45 | the name of a 32-byte digest is 64 lowercase hex characters, the shape both routes look for |
| Text.StartsWithIsConcat | app/src/main/java/com/greenart7c3/morganite/CustomHttpServer.kt:219 | `server.startsWith(p)` holds exactly when the server is `p` followed by some rest |
| Text.Contains | app/src/main/java/com/greenart7c3/morganite/CustomHttpServer.kt:250 | `url.contains(t)` holds exactly when `t` occurs at some index of `url` |
| Text.Decimal | app/src/main/java/com/greenart7c3/morganite/CustomHttpServer.kt:443 | `file.length().toString()` is non-empty, all decimal digits, with no leading zero |
| Text.DecimalRoundTrip | app/src/main/java/com/greenart7c3/morganite/CustomHttpServer.kt:443 | the `Content-Length` text reads back as the length it was printed from |
| Paths.ExtractHash | app/src/main/java/com/greenart7c3/morganite/CustomHttpServer.kt:213-216 | any hash HEAD extracts is 64 lowercase hex characters |
| Paths.ExtractHashMatchesPattern | app/src/main/java/com/greenart7c3/morganite/CustomHttpServer.kt:213-216 | `extractHash(path)` is `h` if and only if the pattern `/([0-9a-f]{64})(?:\.[^/]+)?$`, read literally with Android's `$`, matches with `h` as group 1 |
| Paths.ExtractHashSound | app/src/main/java/com/greenart7c3/morganite/CustomHttpServer.kt:213-216 | what `extractHash` returns is a match of the pattern at the last '/' |
| Paths.ExtractHashComplete | app/src/main/java/com/greenart7c3/morganite/CustomHttpServer.kt:213-216 | every match of the pattern is what `extractHash` returns |
| Paths.HeadMatchIsLastSlash | app/src/main/java/com/greenart7c3/morganite/CustomHttpServer.kt:214 | any match of the HEAD pattern starts at the last '/', so the match is unique |
| Paths.FindHexRun | app/src/main/java/com/greenart7c3/morganite/CustomHttpServer.kt:366-367 | `Regex.find` returns the leftmost index where 64 hex digits start, or nothing when there is none |
| Paths.ExtensionAt | app/src/main/java/com/greenart7c3/morganite/CustomHttpServer.kt:366-373 | group 2 is '.' followed by the maximal `[a-z0-9]` run, or `""` when no '.' followed by such a character comes next |
| Paths.ParseGetPath | app/src/main/java/com/greenart7c3/morganite/CustomHttpServer.kt:366-373 | GET finds a target exactly when some 64-digit run exists; its hash is the leftmost run and its extension is what follows that run |
| Paths.WithScheme | app/src/main/java/com/greenart7c3/morganite/CustomHttpServer.kt:219-220 | the server always ends up with a scheme; one that already has a scheme is left unchanged, and any other gets `https://` in front |
| Paths.BuildUrl | app/src/main/java/com/greenart7c3/morganite/CustomHttpServer.kt:218-222 | the URL starts with `http://` or `https://`, starts with the normalised server, ends with `/` + hash + extension, and has nothing else in it: its length is the sum of those parts |
| Paths.WithSchemeIdempotent | app/src/main/java/com/greenart7c3/morganite/CustomHttpServer.kt:218-222 | normalising twice adds nothing, so a URL never gets a double scheme |
| Paths.BlobNameAcceptedByBothRoutes | app/src/main/java/com/greenart7c3/morganite/CustomHttpServer.kt:213-216 | `/<hash>` gives the hash on HEAD, and the hash with no extension on GET |
| Paths.HeadAcceptsFinalTerminator | app/src/main/java/com/greenart7c3/morganite/CustomHttpServer.kt:214 | HEAD accepts `/<hash>` followed by any one final line terminator, vertical tab and form feed included, as Android's `$` allows |
| Paths.HeadAcceptsNameWithExtension | app/src/main/java/com/greenart7c3/morganite/CustomHttpServer.kt:213-216 | `/<hash>.<ext>` gives the hash on HEAD |
| Paths.GetAcceptsNameWithExtension | app/src/main/java/com/greenart7c3/morganite/CustomHttpServer.kt:366-373 | `/<hash>.<ext>` gives the hash and `.<ext>` on GET |
| Paths.GetAcceptsPathHeadRejects | app/src/main/java/com/greenart7c3/morganite/CustomHttpServer.kt:366-373 | GET accepts `/x/<hash>/y` while HEAD rejects it |
| Paths.GetTruncatesLongRun | app/src/main/java/com/greenart7c3/morganite/CustomHttpServer.kt:366-373 | for a run longer than 64 digits, GET takes the first 64 with no extension and HEAD rejects the path |
| Transport.UpdateClients | app/src/main/java/com/greenart7c3/morganite/CustomHttpServer.kt:148-173 | the Tor client is proxied if and only if Tor is on; the root client is proxied if and only if Tor is on and every URL goes through Tor |
| Transport.RouteFor | app/src/main/java/com/greenart7c3/morganite/CustomHttpServer.kt:250-257 | a fetch is proxied if and only if the applied settings have Tor on and the URL has ".onion" or either settings snapshot routes every URL through Tor |
| Transport.ProxiedIff | app/src/main/java/com/greenart7c3/morganite/CustomHttpServer.kt:250-257 | with one settings snapshot, the proxy is used if and only if `useTor && (onion URL || useTorForAllUrls)` |
| Transport.OnionGoesDirectWithoutTor | app/src/main/java/com/greenart7c3/morganite/CustomHttpServer.kt:169-172 | with Tor off even an onion URL goes direct |
| Blobs.ListedSizeIsTotal | app/src/main/java/com/greenart7c3/morganite/service/AndroidFileStore.kt:29 | summing the lengths over any complete listing gives the directory's total size, whatever the listing order |
| Eviction.SortByMtime | app/src/main/java/com/greenart7c3/morganite/service/AndroidFileStore.kt:91 | `sortedBy { lastModified() }` gives an oldest-first permutation of the listing |
| Eviction.SortKeepsListing | app/src/main/java/com/greenart7c3/morganite/service/AndroidFileStore.kt:91 | the sorted listing still names every file exactly once |
| Eviction.StopIndex | app/src/main/java/com/greenart7c3/morganite/service/AndroidFileStore.kt:95-96 | the loop stops at the first file before which at most 850 MiB remain, or at the end |
| Eviction.StopIndexIsFirstStop | app/src/main/java/com/greenart7c3/morganite/service/AndroidFileStore.kt:95-96 | that stopping point is the unique first place the loop may stop |
| Eviction.DeletedMembers | app/src/main/java/com/greenart7c3/morganite/service/AndroidFileStore.kt:98-100 | the files a prefix of the walk deletes are exactly those in it whose `delete()` succeeds |
| Eviction.Evict | app/src/main/java/com/greenart7c3/morganite/service/AndroidFileStore.kt:95-101 | eviction only removes files and never changes a kept file |
| Eviction.PruneLoop | app/src/main/java/com/greenart7c3/morganite/service/AndroidFileStore.kt:92-101 | the `for` loop keeps exactly `Evict`'s files, and its `remainingSize` is the starting size minus the lengths of the successful deletes |
| Eviction.TotalAfterDeleting | app/src/main/java/com/greenart7c3/morganite/service/AndroidFileStore.kt:97-100 | deleting the successful part of a prefix removes exactly the bytes the loop subtracts |
| Eviction.EvictionAccounting | app/src/main/java/com/greenart7c3/morganite/service/AndroidFileStore.kt:92-100 | the loop's remaining size is the true size of what is left, because a failed delete is neither removed nor subtracted |
| Eviction.EvictionReachesLowWater | app/src/main/java/com/greenart7c3/morganite/service/AndroidFileStore.kt:93-101 | afterwards at most 850 MiB remain, or every file left is one whose delete failed |
| Eviction.EvictionIsMinimal | app/src/main/java/com/greenart7c3/morganite/service/AndroidFileStore.kt:95-96 | before every delete the loop makes, more than 850 MiB remained, so no shorter prefix would do |
| Eviction.EvictionOldestFirst | app/src/main/java/com/greenart7c3/morganite/service/AndroidFileStore.kt:91-101 | a deleted file is never newer than a kept file whose delete would have succeeded |
| Store.UpdateSize | app/src/main/java/com/greenart7c3/morganite/service/AndroidFileStore.kt:28-30 | the counter becomes the directory's total size, or 0 when the listing fails; no file changes |
| Store.Init | app/src/main/java/com/greenart7c3/morganite/service/AndroidFileStore.kt:23-26 | after construction the counter is the size on disk, or 0 when the listing fails |
| Store.PruneIfNeeded | app/src/main/java/com/greenart7c3/morganite/service/AndroidFileStore.kt:86-102 | pruning only removes files and never changes a kept one; it does nothing when the listing fails or at most 1 GiB is stored, and it leaves the counter alone |
| Store.PruneIsEviction | app/src/main/java/com/greenart7c3/morganite/service/AndroidFileStore.kt:87-101 | once the trigger is passed, pruning is the eviction loop over the oldest-first order from the true total |
| Store.PruneReachesLowWater | app/src/main/java/com/greenart7c3/morganite/service/AndroidFileStore.kt:93-101 | once triggered, pruning leaves at most 850 MiB, unless every file left is one whose delete failed |
| Store.PruneOldestFirst | app/src/main/java/com/greenart7c3/morganite/service/AndroidFileStore.kt:91-101 | pruning never deletes a file while keeping an older one it could have deleted |
| Store.Put | app/src/main/java/com/greenart7c3/morganite/service/AndroidFileStore.kt:48 | writing a file adds or replaces exactly that name and keeps the listing complete |
| Store.PutTotal | app/src/main/java/com/greenart7c3/morganite/service/AndroidFileStore.kt:48 | a write changes the total size by the difference in length |
| Store.GetFileByHash | app/src/main/java/com/greenart7c3/morganite/service/AndroidFileStore.kt:32-39 | a file is returned if and only if one with that name exists, with its content; only that file's mtime changes, to now |
| Store.LookupKeepsInvariants | app/src/main/java/com/greenart7c3/morganite/service/AndroidFileStore.kt:32-39 | a lookup keeps the listing, the total size and content addressing |
| Store.SaveBlob | app/src/main/java/com/greenart7c3/morganite/service/AndroidFileStore.kt:41-57 | returns the hex SHA-256 name; a new name holds exactly the bytes, an existing one keeps its content with mtime now, other files are unchanged or pruned, and the counter is the size on disk |
| Store.SaveThenGet | app/src/main/java/com/greenart7c3/morganite/service/AndroidFileStore.kt:41-57 | when pruning cannot run, looking up the returned name finds the blob: exactly the bytes if the name was new, otherwise bytes with the same digest; the directory is the old one with only that name written or touched |
| Store.SaveKeepsAddressed | app/src/main/java/com/greenart7c3/morganite/service/AndroidFileStore.kt:41-57 | saving keeps every file named by the digest of its own content |
| Store.SaveIdempotent | app/src/main/java/com/greenart7c3/morganite/service/AndroidFileStore.kt:47-51 | saving the same bytes again returns the same name, rewrites no content, and adds no file while the blob is present |
| Store.MoveFile | app/src/main/java/com/greenart7c3/morganite/service/AndroidFileStore.kt:59-74 | fails if and only if the move throws; on success the name holds the moved blob, other files are unchanged or pruned, and the counter is the size on disk |
| Store.MoveThenGet | app/src/main/java/com/greenart7c3/morganite/service/AndroidFileStore.kt:59-68 | when pruning cannot run, a move leaves exactly the old directory with the name now holding the moved blob |
| Store.MoveCanBreakAddressing | app/src/main/java/com/greenart7c3/morganite/service/AndroidFileStore.kt:62-66 | the move does not look at content: a blob moved under a name that is not its digest breaks content addressing |
| Tee.Expected | app/src/main/java/com/greenart7c3/morganite/CustomHttpServer.kt:282-294 | what the client got is a prefix of the file, the file of the digest input, and that of the body; the copy completes if and only if no fault falls within the body, and then all three equal the body; a broken pipe comes only from a client write |
| Tee.TeeLoop | app/src/main/java/com/greenart7c3/morganite/CustomHttpServer.kt:282-294 | the copy loop leaves the client, the file and the digest with exactly what the reference gives; its invariant is that all three equal the body read so far |
| Retrieval.Fetch | app/src/main/java/com/greenart7c3/morganite/CustomHttpServer.kt:249-260 | the exchange is the network's answer for `buildUrl(server, hash, ext)` over a route that is the Tor proxy if and only if Tor is on and the URL has ".onion" or either settings snapshot routes every URL through Tor |
| Retrieval.TryFetchAndStream | app/src/main/java/com/greenart7c3/morganite/CustomHttpServer.kt:243-315 | a non-2xx reply or missing body fails with no temporary file and no response; a failure leaves the store alone; a success streams the whole body with the upstream status and type and stores it under the requested hash; a temporary file is left behind if and only if the reply is usable and copying its headers throws |
| Retrieval.AttemptSucceedsIff | app/src/main/java/com/greenart7c3/morganite/CustomHttpServer.kt:259-309 | an attempt succeeds if and only if the reply is usable, nothing throws before or during the copy, and the move succeeds |
| Retrieval.BrokenPipeIsOrdinaryFailure | app/src/main/java/com/greenart7c3/morganite/CustomHttpServer.kt:300-314 | a broken pipe ends the attempt in `false` with the store untouched and no temporary file left |
| Retrieval.StreamErrorCleansUp | app/src/main/java/com/greenart7c3/morganite/CustomHttpServer.kt:300-308 | an exception in the copy loop deletes the temporary file and leaves the store alone; the client keeps what was already written to it |
| Retrieval.MoveFailureAfterFullStream | app/src/main/java/com/greenart7c3/morganite/CustomHttpServer.kt:282-309 | when the whole body streams but `moveFile` throws, the attempt fails with the store unchanged and no temporary file, yet the client has already received the full body with the upstream status and type |
| Retrieval.CommitIgnoresDigest | app/src/main/java/com/greenart7c3/morganite/CustomHttpServer.kt:288-297 | a completed download is committed under the requested hash even when its digest differs |
| Retrieval.TryServers | app/src/main/java/com/greenart7c3/morganite/CustomHttpServer.kt:403-407 | a walk that succeeds tried at least one and at most all the servers; one that fails tried them all, left the store alone and served nothing |
| Retrieval.TryServersLeaks | app/src/main/java/com/greenart7c3/morganite/CustomHttpServer.kt:273-278 | a failed walk leaves one temporary file for each attempt that threw while copying headers; a successful walk, one for each such attempt before the success |
| Retrieval.TryServersSpec | app/src/main/java/com/greenart7c3/morganite/CustomHttpServer.kt:403-407 | a walk succeeds if and only if some server succeeds; it then tried exactly the prefix up to the first success and carries that attempt's store and stream; otherwise it tried all servers and left the store alone |
| Retrieval.FromAuthors | app/src/main/java/com/greenart7c3/morganite/CustomHttpServer.kt:410-417 | authors are looked up in list order; a success ends at an author whose servers gave one, and a failure looked up every author and left the store alone |
| Retrieval.FromAuthorsStopsAtFirst | app/src/main/java/com/greenart7c3/morganite/CustomHttpServer.kt:410-417 | every author looked up before the last one failed, so the lookup stops after the first author whose servers give a success; on failure every author failed |
| Retrieval.Retrieve | app/src/main/java/com/greenart7c3/morganite/CustomHttpServer.kt:397-420 | no author is looked up when an `xs` server succeeds, and a success that came from an author's servers looked up at least one author; otherwise authors are looked up in order up to the first one whose servers give a success, every earlier one having failed; a failed retrieval looked up every author, all of which failed, and left the store alone |
| Retrieval.TryServersAppend | app/src/main/java/com/greenart7c3/morganite/CustomHttpServer.kt:403-416 | walking two lists one after the other is walking their concatenation |
| Retrieval.FromAuthorsIsFlat | app/src/main/java/com/greenart7c3/morganite/CustomHttpServer.kt:410-417 | the nested author loop is one walk over all authors' servers in order |
| Retrieval.RetrieveIsFlat | app/src/main/java/com/greenart7c3/morganite/CustomHttpServer.kt:397-417 | the miss path is one walk over the `xs` servers followed by every author's servers |
| Retrieval.RetrieveFailsIff | app/src/main/java/com/greenart7c3/morganite/CustomHttpServer.kt:403-420 | retrieval fails if and only if every candidate fails, including when there are none; then every candidate was tried |
| Retrieval.RetrieveStopsAtFirstSuccess | app/src/main/java/com/greenart7c3/morganite/CustomHttpServer.kt:403-416 | on success exactly the candidates up to the first success were tried, and the result is that attempt's |
| Retrieval.RetrieveLeaks | app/src/main/java/com/greenart7c3/morganite/CustomHttpServer.kt:397-420 | a failed miss path leaves one temporary file for each candidate, in `xs` or an author's list, whose header copy threw |
| Retrieval.RetrieveServesSuccess | app/src/main/java/com/greenart7c3/morganite/CustomHttpServer.kt:261-264 | what the miss path serves carries a 2xx upstream status |
| Retrieval.RetrieveKeepsValid | app/src/main/java/com/greenart7c3/morganite/CustomHttpServer.kt:397-420 | every store the miss path leaves behind lists its files completely |
| Retrieval.BrokenPipeMovesOn | app/src/main/java/com/greenart7c3/morganite/CustomHttpServer.kt:300-314 | a broken pipe on one server does not stop the walk: the rest of the servers are tried |
| Router.HandleGet | app/src/main/java/com/greenart7c3/morganite/CustomHttpServer.kt:363-421 | the GET route always leaves a completely listed store |
| Router.HandleHead | app/src/main/java/com/greenart7c3/morganite/CustomHttpServer.kt:423-445 | the HEAD route contacts no server and looks up no author |
| Router.Handle | app/src/main/java/com/greenart7c3/morganite/CustomHttpServer.kt:340-361 | OPTIONS answers 200 with the four CORS headers and changes nothing; only GET fetches or adds files |
| Router.BadGetPathIs400 | app/src/main/java/com/greenart7c3/morganite/CustomHttpServer.kt:366-370 | a GET path without a 64-digit run is 400 before the store or the network is touched |
| Router.HeadDecisions | app/src/main/java/com/greenart7c3/morganite/CustomHttpServer.kt:423-445 | HEAD gives 400 for a rejected path, 404 for an absent blob, or 200 with the blob's length as `Content-Length` and the hash as `ETag`, with no body, no fetch and no change of content |
| Router.GetHitDecisions | app/src/main/java/com/greenart7c3/morganite/CustomHttpServer.kt:376-394 | a local hit is 304 if and only if `If-None-Match` is the quoted hash, otherwise 200 with the blob, its detected type and the unquoted hash as `ETag`, and no server is contacted |
| Router.QuotedETag | app/src/main/java/com/greenart7c3/morganite/CustomHttpServer.kt:379 | the compared `ETag` is the hash with one `"` added on each side and nothing else |
| Router.EchoedETagNeverRevalidates | app/src/main/java/com/greenart7c3/morganite/CustomHttpServer.kt:379-391 | echoing the served `ETag` back in `If-None-Match` never gives 304 |
| Router.GetMissFailsIff | app/src/main/java/com/greenart7c3/morganite/CustomHttpServer.kt:397-420 | on a local miss, the route asks for 404 if and only if every candidate fails; then every candidate was tried and the store is unchanged |
| Router.GetMissServesFirstSuccess | app/src/main/java/com/greenart7c3/morganite/CustomHttpServer.kt:403-416 | otherwise GET relays the status and body of the first successful candidate, after trying exactly the candidates before it |
| Router.HeadAgreesWithGet | app/src/main/java/com/greenart7c3/morganite/CustomHttpServer.kt:423-436 | for `/<hash>`, HEAD is 200 if and only if the blob is stored, and then GET answers without contacting any server and without 404 |

## Left out

- The relay query inside `fetchAuthorServers` (`CustomHttpServer.kt:224-241`) is an oracle from pubkey to server list. Any non-matching event gives `[]`.
- The network and the relay answer the same question the same way within one request: `Env.network` is a function of (URL, route) and `Env.authorServers` of the pubkey. A server listed twice (in `xs` and in an author's list, or twice in one list) gets the same reply both times, and an author listed twice the same server list, although the code makes a new HTTP call (`CustomHttpServer.kt:259`) or relay query (`CustomHttpServer.kt:411`) each time and a retry could succeed.
- OkHttp and Ktor I/O is replaced by oracles: the network answers each exchange, and the response writer's failures are faults at a buffer.
- The `PartialContent` and `CachingHeaders` plugins (`CustomHttpServer.kt:336-337`) are not modelled at all.
- The copy of upstream headers onto the response (`CustomHttpServer.kt:276-278`) is library behaviour and is not modelled. Only the fact that it can throw after the temporary file exists is kept. Which replies make it throw is not modelled either: Ktor's `appendIfAbsent` defaults to `safeOnly = true` and rejects `Content-Type` and `Content-Length` with `UnsafeHeaderException`, so most upstream replies are likely to take this path (`Setup.FailsAfterTempFile`).
- Retrieval.TryFetchAndStream: a later attempt answering on a response an earlier failed attempt already began writing is not modelled. The GET answer is that of the first successful attempt, because what Ktor does with a second `respondOutputStream` call is library behaviour.
- Failure of `respondOutputStream` before its block runs is modelled as a read fault at the first buffer.
- Apache Tika MIME detection (`AndroidFileStore.kt:81-84`) is the uninterpreted function `detect`.
- `ContentType.parse` normalisation of the upstream type is left out: the header value is passed through as is.
- SHA-256 itself is not modelled. It is any function from bytes to 32 bytes, as FIPS 180-4 fixes the length.
- The digest fed during the copy is tracked as bytes, not as a hash state.
- The 8192-byte buffer size is not modelled. The body is a sequence of buffers of any sizes.
- The wall clock is the parameter `now`. The failure of `setLastModified`, whose return value the code ignores, is not modelled.
- Failure of `writeBytes` in `saveBlob` is not modelled.
- Long overflow in the size sums is not modelled: sizes are unbounded integers.
- `listFiles` order is arbitrary on disk. The model keeps one complete listing, and new names go to its end. The properties hold for every complete listing, not only the one chosen.
- Directories inside the blob directory and files other than blobs are not modelled.
- Concurrent requests and filesystem races are not modelled: the code takes no locks, and the model is sequential.
- Methods other than GET, HEAD and OPTIONS are not modelled.
- Ktor's default headers on `HEAD /` are not modelled.
- Tor service start/stop, settings collection, server lifecycle and logging are outside this model.
- Store.SaveThenGet: the round trip is proved only when pruning cannot run, i.e. the listing fails or the new total stays within 1 GiB. Once pruning runs, the saved blob may be among the files deleted, as the code allows.
- Store.MoveThenGet: proved under the same condition as `SaveThenGet`, for the same reason.
- Router.HandleGet: its own contract states only that the store stays valid. The status decisions are stated by `Router.BadGetPathIs400`, `Router.GetHitDecisions`, `Router.GetMissFailsIff` and `Router.GetMissServesFirstSuccess`.
- Router.HandleHead: its own contract states only that no server is contacted. The status decisions are stated by `Router.HeadDecisions`.
- Router.GetHitDecisions: the 200 is the status the route asks for. Requests carry no `Range` header, so the 206 that `PartialContent` would give a ranged request on a hit is not modelled. The `appendIfAbsent` calls at `CustomHttpServer.kt:390-391` are taken to set `Content-Type` and `ETag`, but Ktor's default `safeOnly = true` rejects `Content-Type`, so on the server that block may throw and no 200 be sent.
- Router.HeadDecisions: the 200 is the status the route asks for. The `appendIfAbsent` calls at `CustomHttpServer.kt:442-444` are taken to set `Content-Type`, `Content-Length` and `ETag`, but Ktor's default `safeOnly = true` rejects `Content-Type` and `Content-Length`, so on the server the HEAD hit may throw instead of answering 200 with those headers.
- Router.GetMissFailsIff: the 404 is the status the route asks for. When an attempt already wrote a full response before its move failed (`Retrieval.MoveFailureAfterFullStream`), the client does not receive that 404; what Ktor does with the second response is library behaviour.

=== FILE: base.dfy ===
/** Shared vocabulary: optional values, results, and the JVM's signed byte. */
module Base {

  datatype Option<+T> = None | Some(value: T)

  /** The exceptions the blob store lets escape to its caller. */
  datatype IoError = IoException

  datatype Result<+R> = Success(value: R) | Failure(error: IoError)

  /** A Kotlin `Byte`: 8 bits, two's complement, so -128 .. 127. */
  newtype Int8 = x: int | -128 <= x < 128

  /** A Kotlin `ByteArray`. */
  type Bytes = seq<Int8>

  /** A SHA-256 digest as a `ByteArray`: always 32 bytes (FIPS 180-4). */
  type Digest = d: Bytes | |d| == 32 witness seq(32, i => 0 as Int8)

  /** SHA-256 itself is not modelled: every operation that hashes takes the
      digest function as a parameter and assumes nothing about it beyond its type. */
  type Sha256 = Bytes -> Digest
}

=== FILE: blobs.dfy ===
/** The blob directory of AndroidFileStore.kt as data: a map from file name
    to contents and last-modified time, plus the order `listFiles` returns. */
module Blobs {
  import opened Base

  /** A regular file in the blob directory. `mtime` is `lastModified()` in
      milliseconds. */
  datatype Blob = Blob(bytes: Bytes, mtime: int)

  type Files = map<string, Blob>

  /** Some file of a non-empty directory. */
  ghost function Pick(files: Files): (k: string)
    requires |files.Keys| > 0
    ensures k in files
  {
    var k :| k in files.Keys; k
  }

  /** The sum of all file lengths in the directory, in no particular order. */
  ghost function Total(files: Files): nat
    decreases |files.Keys|
  {
    if |files.Keys| == 0 then 0
    else
      var k := Pick(files);
      assert (files - {k}).Keys == files.Keys - {k};
      |files[k].bytes| + Total(files - {k})
  }

  /** Any file can be taken out of the sum first. */
  lemma TotalRemove(files: Files, k: string)
    requires k in files
    ensures Total(files) == |files[k].bytes| + Total(files - {k})
    decreases |files.Keys|
  {
    var j := Pick(files);
    if j != k {
      var a := files - {j};
      var b := files - {k};
      assert a.Keys == files.Keys - {j};
      assert b.Keys == files.Keys - {k};
      TotalRemove(a, k);
      TotalRemove(b, j);
      assert a - {k} == b - {j};
    }
  }

  /** Adding or replacing one file changes the sum by the difference in length. */
  lemma TotalUpdate(files: Files, k: string, b: Blob)
    ensures Total(files[k := b]) == Total(files - {k}) + |b.bytes|
    ensures k in files ==> Total(files) == Total(files - {k}) + |files[k].bytes|
  {
    TotalRemove(files[k := b], k);
    assert files[k := b] - {k} == files - {k};
    if k in files {
      TotalRemove(files, k);
    }
  }

  predicate Distinct(s: seq<string>) {
    forall i, j :: 0 <= i < j < |s| ==> s[i] != s[j]
  }

  predicate AllIn(s: seq<string>, files: Files) {
    forall i :: 0 <= i < |s| ==> s[i] in files
  }

  /** `dir` names every file of the directory exactly once. */
  predicate Lists(dir: seq<string>, files: Files) {
    Distinct(dir) && AllIn(dir, files) && forall k :: k in files ==> k in dir
  }

  /** `listFiles().sumOf { it.length() }`, in listing order. */
  function ListedSize(files: Files, dir: seq<string>): nat
    requires AllIn(dir, files)
    decreases |dir|
  {
    if |dir| == 0 then 0
    else ListedSize(files, dir[..|dir| - 1]) + |files[dir[|dir| - 1]].bytes|
  }

  /** The listed size only reads the files it lists. */
  lemma {:induction false} ListedSizeLocal(files: Files, other: Files, dir: seq<string>)
    requires AllIn(dir, files) && AllIn(dir, other)
    requires forall i :: 0 <= i < |dir| ==> files[dir[i]] == other[dir[i]]
    ensures ListedSize(files, dir) == ListedSize(other, dir)
    decreases |dir|
  {
    if |dir| > 0 {
      ListedSizeLocal(files, other, dir[..|dir| - 1]);
    }
  }

  /** Summing over any complete listing gives the directory's total size. */
  lemma {:induction false} ListedSizeIsTotal(files: Files, dir: seq<string>)
    requires Lists(dir, files)
    ensures ListedSize(files, dir) == Total(files)
    decreases |dir|
  {
    if |dir| == 0 {
      assert files.Keys == {};
    } else {
      var last := dir[|dir| - 1];
      var init := dir[..|dir| - 1];
      var rest := files - {last};
      assert Lists(init, rest) by {
        forall k | k in rest ensures k in init {
          var i :| 0 <= i < |dir| && dir[i] == k;
          assert i != |dir| - 1;
        }
      }
      ListedSizeLocal(files, rest, init);
      ListedSizeIsTotal(rest, init);
      TotalRemove(files, last);
    }
  }
}

=== FILE: eviction.dfy ===
/** The eviction policy of `pruneIfNeeded` in AndroidFileStore.kt: once the
    directory holds more than 1 GiB, delete files oldest-first until at most
    850 MiB remain or the files run out. */
module Eviction {
  import opened Base
  import opened Blobs

  /** Pruning starts only above `1024L * 1024L * 1024L` bytes. */
  const HighWaterMark: nat := 1024 * 1024 * 1024

  /** Pruning stops once at most `850L * 1024L * 1024L` bytes remain. */
  const LowWaterMark: nat := 850 * 1024 * 1024

  // ---------------------------------------------------------------------
  // `files.sortedBy { it.lastModified() }`
  // ---------------------------------------------------------------------

  predicate SortedByMtime(files: Files, s: seq<string>)
    requires AllIn(s, files)
  {
    forall i, j :: 0 <= i < j < |s| ==> files[s[i]].mtime <= files[s[j]].mtime
  }

  /** Puts `x` before the first element that is not older than it, so `x`
      stays ahead of files with the same time (the sort is stable). */
  function InsertByMtime(files: Files, x: string, s: seq<string>): (r: seq<string>)
    requires x in files && AllIn(s, files) && SortedByMtime(files, s)
    ensures AllIn(r, files) && SortedByMtime(files, r)
    ensures multiset(r) == multiset(s) + multiset{x}
    ensures Distinct(s) && x !in s ==> Distinct(r)
    decreases |s|
  {
    if |s| == 0 || files[x].mtime <= files[s[0]].mtime then
      NotOlderThanHead(files, x, s);
      SortedCons(files, x, s);
      DistinctCons(x, s);
      [x] + s
    else
      assert s == [s[0]] + s[1..];
      DistinctCons(s[0], s[1..]);
      var tail := InsertByMtime(files, x, s[1..]);
      HeadPrecedesInsertion(files, x, s, tail);
      SortedCons(files, s[0], tail);
      DistinctCons(s[0], tail);
      [s[0]] + tail
  }

  /** A file no newer than the head of a sorted listing is no newer than any of it. */
  lemma NotOlderThanHead(files: Files, x: string, s: seq<string>)
    requires x in files && AllIn(s, files) && SortedByMtime(files, s)
    requires |s| == 0 || files[x].mtime <= files[s[0]].mtime
    ensures forall k :: 0 <= k < |s| ==> files[x].mtime <= files[s[k]].mtime
  {
  }

  lemma DistinctCons(a: string, t: seq<string>)
    ensures Distinct([a] + t) <==> a !in t && Distinct(t)
  {
    var r := [a] + t;
    if a !in t && Distinct(t) {
      forall i, j | 0 <= i < j < |r| ensures r[i] != r[j] {
        assert r[j] == t[j - 1];
        if i > 0 { assert r[i] == t[i - 1]; }
      }
    }
    if Distinct(r) {
      forall i, j | 0 <= i < j < |t| ensures t[i] != t[j] {
        assert t[i] == r[i + 1] && t[j] == r[j + 1];
      }
      forall k | 0 <= k < |t| ensures t[k] != a {
        assert t[k] == r[k + 1] && r[0] == a;
      }
    }
  }

  lemma SortedCons(files: Files, a: string, t: seq<string>)
    requires a in files && AllIn(t, files) && SortedByMtime(files, t)
    requires forall k :: 0 <= k < |t| ==> files[a].mtime <= files[t[k]].mtime
    ensures AllIn([a] + t, files) && SortedByMtime(files, [a] + t)
  {
    var r := [a] + t;
    forall i, j | 0 <= i < j < |r| ensures files[r[i]].mtime <= files[r[j]].mtime {
      if i > 0 {
        assert r[i] == t[i - 1] && r[j] == t[j - 1];
      } else {
        assert r[j] == t[j - 1];
      }
    }
  }

  /** Every element of `tail`, which holds `s[1..]` and a newer `x`, is at
      least as new as `s[0]`. */
  lemma HeadPrecedesInsertion(files: Files, x: string, s: seq<string>, tail: seq<string>)
    requires |s| > 0 && x in files && AllIn(s, files) && SortedByMtime(files, s)
    requires files[s[0]].mtime < files[x].mtime
    requires multiset(tail) == multiset(s[1..]) + multiset{x}
    ensures forall k :: 0 <= k < |tail| ==> tail[k] in files && files[s[0]].mtime <= files[tail[k]].mtime
    ensures Distinct(s) && x !in s ==> s[0] !in tail
  {
    forall k | 0 <= k < |tail| ensures tail[k] in files && files[s[0]].mtime <= files[tail[k]].mtime {
      assert tail[k] in multiset(tail);
      if tail[k] != x {
        assert tail[k] in multiset(s[1..]);
        var m :| 0 <= m < |s[1..]| && s[1..][m] == tail[k];
        assert s[m + 1] == tail[k];
      }
    }
    if Distinct(s) && x !in s {
      assert s[0] !in s[1..] by {
        forall m | 1 <= m < |s| ensures s[m] != s[0] { }
      }
      assert multiset(tail)[s[0]] == 0;
    }
  }

  /** A stable insertion sort by last-modified time, oldest first. */
  function SortByMtime(files: Files, s: seq<string>): (r: seq<string>)
    requires AllIn(s, files)
    ensures AllIn(r, files) && SortedByMtime(files, r)
    ensures multiset(r) == multiset(s)
    ensures Distinct(s) ==> Distinct(r)
    decreases |s|
  {
    if |s| == 0 then []
    else
      var rest := SortByMtime(files, s[1..]);
      assert s == [s[0]] + s[1..];
      assert Distinct(s) ==> s[0] !in s[1..];
      assert s[0] !in s[1..] ==> s[0] !in rest by {
        assert s[0] in rest ==> s[0] in multiset(s[1..]);
      }
      InsertByMtime(files, s[0], rest)
  }

  /** Sorting keeps a complete listing complete. */
  lemma SortKeepsListing(files: Files, dir: seq<string>)
    requires Lists(dir, files)
    ensures Lists(SortByMtime(files, dir), files)
  {
    var r := SortByMtime(files, dir);
    forall k | k in files ensures k in r {
      assert k in multiset(dir);
    }
  }

  // ---------------------------------------------------------------------
  // The deletion loop
  // ---------------------------------------------------------------------

  /** Bytes the deletes of `names` free: a delete that fails frees nothing. */
  function Freed(files: Files, names: seq<string>, failing: set<string>): nat
    requires AllIn(names, files)
    decreases |names|
  {
    if |names| == 0 then 0
    else
      var last := names[|names| - 1];
      Freed(files, names[..|names| - 1], failing) + (if last in failing then 0 else |files[last].bytes|)
  }

  /** The names among `names` whose delete succeeds. */
  function Deleted(names: seq<string>, failing: set<string>): set<string>
    decreases |names|
  {
    if |names| == 0 then {}
    else
      var last := names[|names| - 1];
      Deleted(names[..|names| - 1], failing) + (if last in failing then {} else {last})
  }

  lemma {:induction false} DeletedMembers(names: seq<string>, failing: set<string>)
    ensures forall x :: x in Deleted(names, failing) <==> x in names && x !in failing
    decreases |names|
  {
    if |names| > 0 {
      DeletedMembers(names[..|names| - 1], failing);
      assert names == names[..|names| - 1] + [names[|names| - 1]];
    }
  }

  /** The index at which the loop stops: the first index `k` at or after `i`
      where the remaining size is at most the low-water mark, or the end. */
  function StopIndex(files: Files, order: seq<string>, current: int, failing: set<string>, i: nat): (k: nat)
    requires AllIn(order, files) && i <= |order|
    ensures i <= k <= |order|
    ensures k < |order| ==> current - Freed(files, order[..k], failing) <= LowWaterMark
    ensures forall j :: i <= j < k ==> current - Freed(files, order[..j], failing) > LowWaterMark
    decreases |order| - i
  {
    if i == |order| || current - Freed(files, order[..i], failing) <= LowWaterMark then i
    else StopIndex(files, order, current, failing, i + 1)
  }

  /** The files left after the loop walks `order` from `current` bytes. */
  function Evict(files: Files, order: seq<string>, current: int, failing: set<string>): (kept: Files)
    requires AllIn(order, files)
    ensures forall n :: n in kept ==> n in files && kept[n] == files[n]
  {
    files - Deleted(order[..StopIndex(files, order, current, failing, 0)], failing)
  }

  /** The `for (file in sortedFiles)` loop: before each file it stops if at
      most `targetSize` bytes remain; a successful `delete()` subtracts the
      file's length, a failed one subtracts nothing. */
  method PruneLoop(files: Files, order: seq<string>, current: int, failing: set<string>)
    returns (kept: Files, remaining: int)
    requires AllIn(order, files) && Distinct(order)
    ensures kept == Evict(files, order, current, failing)
    ensures remaining == current - Freed(files, order[..StopIndex(files, order, current, failing, 0)], failing)
  {
    kept := files;
    remaining := current;
    var i := 0;
    while i < |order|
      invariant 0 <= i <= |order|
      invariant forall j :: 0 <= j < i ==> current - Freed(files, order[..j], failing) > LowWaterMark
      invariant remaining == current - Freed(files, order[..i], failing)
      invariant kept == files - Deleted(order[..i], failing)
    {
      if remaining <= LowWaterMark {
        break;
      }
      var file := order[i];
      LoopStep(files, order, current, failing, i, kept, remaining);
      var fileSize := |kept[file].bytes|;
      if file !in failing {
        kept := kept - {file};
        remaining := remaining - fileSize;
      }
      i := i + 1;
    }
    assert StopIndex(files, order, current, failing, 0) == i by {
      StopIndexIsFirstStop(files, order, current, failing, i);
    }
  }

  /** One pass of the loop body keeps the loop's two accounts in step with
      `Deleted` and `Freed`. */
  lemma LoopStep(files: Files, order: seq<string>, current: int, failing: set<string>, i: nat, kept: Files, remaining: int)
    requires AllIn(order, files) && Distinct(order) && i < |order|
    requires remaining == current - Freed(files, order[..i], failing)
    requires kept == files - Deleted(order[..i], failing)
    ensures var file := order[i];
            && file in kept && kept[file] == files[file]
            && (file in failing ==>
                  kept == files - Deleted(order[..i + 1], failing)
                  && remaining == current - Freed(files, order[..i + 1], failing))
            && (file !in failing ==>
                  kept - {file} == files - Deleted(order[..i + 1], failing)
                  && remaining - |files[file].bytes| == current - Freed(files, order[..i + 1], failing))
  {
    NotDeletedYet(order, failing, i);
    PrefixStep(files, order, failing, i + 1);
  }

  /** In a duplicate-free order, the file at `i` is not among those deleted before it. */
  lemma NotDeletedYet(order: seq<string>, failing: set<string>, i: nat)
    requires Distinct(order) && i < |order|
    ensures order[i] !in Deleted(order[..i], failing)
  {
    DeletedMembers(order[..i], failing);
    forall k | 0 <= k < i ensures order[..i][k] != order[i] {
      assert order[..i][k] == order[k];
    }
  }

  /** The stop index is determined by the first place the loop may stop. */
  lemma {:induction false} StopIndexIsFirstStop(files: Files, order: seq<string>, current: int, failing: set<string>, k: nat)
    requires AllIn(order, files) && k <= |order|
    requires forall j :: 0 <= j < k ==> current - Freed(files, order[..j], failing) > LowWaterMark
    requires k == |order| || current - Freed(files, order[..k], failing) <= LowWaterMark
    ensures StopIndex(files, order, current, failing, 0) == k
  {
  }

  // ---------------------------------------------------------------------
  // What the loop achieves
  // ---------------------------------------------------------------------

  /** Extending the prefix by one name adds that name's delete, if it succeeds. */
  lemma PrefixStep(files: Files, order: seq<string>, failing: set<string>, n: nat)
    requires AllIn(order, files) && 0 < n <= |order|
    ensures var x := order[n - 1];
            && Deleted(order[..n], failing) == Deleted(order[..n - 1], failing) + (if x in failing then {} else {x})
            && Freed(files, order[..n], failing) == Freed(files, order[..n - 1], failing) + (if x in failing then 0 else |files[x].bytes|)
  {
    assert order[..n][..n - 1] == order[..n - 1];
  }

  lemma TotalDeleteOneMore(files: Files, d: set<string>, x: string)
    requires x in files && x !in d
    ensures Total(files - (d + {x})) == Total(files - d) - |files[x].bytes|
  {
    assert files - (d + {x}) == (files - d) - {x};
    TotalRemove(files - d, x);
  }

  /** One more name in the prefix removes that file's bytes, if its delete succeeds. */
  lemma TotalDeleteStep(files: Files, order: seq<string>, failing: set<string>, n: nat)
    requires AllIn(order, files) && Distinct(order) && 0 < n <= |order|
    ensures var x := order[n - 1];
            Total(files - Deleted(order[..n], failing))
              == Total(files - Deleted(order[..n - 1], failing)) - (if x in failing then 0 else |files[x].bytes|)
  {
    var x := order[n - 1];
    var prefix := order[..n - 1];
    PrefixStep(files, order, failing, n);
    if x !in failing {
      DeletedMembers(prefix, failing);
      assert x !in prefix;
      TotalDeleteOneMore(files, Deleted(prefix, failing), x);
    }
  }

  lemma NothingDeleted(files: Files, order: seq<string>, failing: set<string>)
    ensures files - Deleted(order[..0], failing) == files
    ensures AllIn(order, files) ==> Freed(files, order[..0], failing) == 0
  {
    assert files - {} == files;
  }

  /** Deleting the successful part of a prefix of a duplicate-free listing
      removes exactly the bytes `Freed` counts. */
  lemma {:induction false} TotalAfterDeleting(files: Files, order: seq<string>, failing: set<string>, n: nat)
    requires AllIn(order, files) && Distinct(order) && n <= |order|
    ensures Total(files - Deleted(order[..n], failing)) == Total(files) - Freed(files, order[..n], failing)
  {
    if n == 0 {
      NothingDeleted(files, order, failing);
    } else {
      TotalAfterDeleting(files, order, failing, n - 1);
      TotalDeleteStep(files, order, failing, n);
      PrefixStep(files, order, failing, n);
    }
  }

  /** The loop's `remainingSize` is the true size of what is left: failed
      deletes are neither removed nor counted. */
  lemma EvictionAccounting(files: Files, order: seq<string>, failing: set<string>)
    requires Lists(order, files)
    ensures var k := StopIndex(files, order, Total(files), failing, 0);
            Total(Evict(files, order, Total(files), failing)) == Total(files) - Freed(files, order[..k], failing)
  {
    TotalAfterDeleting(files, order, failing, StopIndex(files, order, Total(files), failing, 0));
  }

  /** Afterwards at most 850 MiB remain, or every file still present is one
      whose delete failed; with no failed deletes that means the directory is empty. */
  lemma EvictionReachesLowWater(files: Files, order: seq<string>, failing: set<string>)
    requires Lists(order, files)
    ensures Total(Evict(files, order, Total(files), failing)) <= LowWaterMark
            || Evict(files, order, Total(files), failing).Keys <= failing
  {
    var k := StopIndex(files, order, Total(files), failing, 0);
    EvictionAccounting(files, order, failing);
    if k == |order| {
      assert order[..k] == order;
      DeletedMembers(order, failing);
    }
  }

  /** No shorter prefix would have done: before each delete the loop makes,
      more than 850 MiB remained. */
  lemma EvictionIsMinimal(files: Files, order: seq<string>, failing: set<string>)
    requires Lists(order, files)
    ensures forall j :: 0 <= j < StopIndex(files, order, Total(files), failing, 0) ==>
              Total(files - Deleted(order[..j], failing)) > LowWaterMark
  {
    forall j | 0 <= j < StopIndex(files, order, Total(files), failing, 0)
      ensures Total(files - Deleted(order[..j], failing)) > LowWaterMark
    {
      TotalAfterDeleting(files, order, failing, j);
    }
  }

  /** Oldest first: a deleted file is never newer than a kept file whose
      delete would have succeeded. */
  lemma EvictionOldestFirst(files: Files, order: seq<string>, current: int, failing: set<string>)
    requires Lists(order, files) && SortedByMtime(files, order)
    ensures forall x, y :: x in files && x !in Evict(files, order, current, failing)
                           && y in Evict(files, order, current, failing) && y !in failing ==>
              files[x].mtime <= files[y].mtime
  {
    var k := StopIndex(files, order, current, failing, 0);
    var prefix := order[..k];
    var kept := Evict(files, order, current, failing);
    DeletedMembers(prefix, failing);
    forall x, y | x in files && x !in kept && y in kept && y !in failing
      ensures files[x].mtime <= files[y].mtime
    {
      var i :| 0 <= i < k && prefix[i] == x;
      var j :| 0 <= j < |order| && order[j] == y;
      if j < k {
        assert false;
      }
    }
  }
}

=== FILE: hex.dfy ===
/** The lowercase hexadecimal naming of blobs: `sha256` in AndroidFileStore.kt
    formats each digest byte with `"%02x"` and joins the pieces. */
module Hex {
  import opened Base

  /** The character class `[0-9a-f]` that both request routes match on. */
  predicate IsHexDigit(c: char) {
    '0' <= c <= '9' || 'a' <= c <= 'f'
  }

  predicate IsHexString(s: string) {
    forall i :: 0 <= i < |s| ==> IsHexDigit(s[i])
  }

  /** A blob name: exactly 64 lowercase hexadecimal characters. */
  predicate IsHash(s: string) {
    |s| == 64 && IsHexString(s)
  }

  /** The value `%x` prints for a `Byte`: a negative byte is printed as the
      unsigned value obtained by adding 2^8. */
  function Unsigned(b: Int8): (u: nat)
    ensures u < 256
    ensures (u - b as int) % 256 == 0
  {
    if b < 0 then b as int + 256 else b as int
  }

  function Digit(n: nat): (c: char)
    requires n < 16
    ensures IsHexDigit(c)
  {
    if n < 10 then ('0' as int + n) as char else ('a' as int + n - 10) as char
  }

  function DigitValue(c: char): (n: nat)
    requires IsHexDigit(c)
    ensures n < 16 && Digit(n) == c
  {
    if c <= '9' then c as int - '0' as int else c as int - 'a' as int + 10
  }

  lemma DigitValueOfDigit(n: nat)
    requires n < 16
    ensures DigitValue(Digit(n)) == n
  {
  }

  /** `"%02x".format(b)`: always exactly two digits, high nibble first. */
  function ByteToHex(b: Int8): (s: string)
    ensures |s| == 2 && IsHexString(s)
    ensures 16 * DigitValue(s[0]) + DigitValue(s[1]) == Unsigned(b)
  {
    var u := Unsigned(b);
    [Digit(u / 16), Digit(u % 16)]
  }

  /** `digest.joinToString("") { "%02x".format(it) }`. */
  function Encode(d: Bytes): (s: string)
    ensures |s| == 2 * |d|
    ensures IsHexString(s)
  {
    if |d| == 0 then "" else ByteToHex(d[0]) + Encode(d[1..])
  }

  /** The byte whose two-digit rendering is `hi lo`. */
  function HexToByte(hi: char, lo: char): Int8
    requires IsHexDigit(hi) && IsHexDigit(lo)
  {
    var v := 16 * DigitValue(hi) + DigitValue(lo);
    if v >= 128 then (v - 256) as Int8 else v as Int8
  }

  /** The inverse reading of a hex string; absent for an odd length or a
      character outside `[0-9a-f]`. */
  function Decode(s: string): (r: Option<Bytes>)
    ensures r.Some? <==> |s| % 2 == 0 && IsHexString(s)
    ensures r.Some? ==> 2 * |r.value| == |s|
    decreases |s|
  {
    if |s| == 0 then Some([])
    else if |s| == 1 || !IsHexDigit(s[0]) || !IsHexDigit(s[1]) then None
    else match Decode(s[2..])
      case None => None
      case Some(rest) => Some([HexToByte(s[0], s[1])] + rest)
  }

  lemma ByteRoundTrip(b: Int8)
    ensures HexToByte(ByteToHex(b)[0], ByteToHex(b)[1]) == b
  {
    var u := Unsigned(b);
    DigitValueOfDigit(u / 16);
    DigitValueOfDigit(u % 16);
  }

  /** Reading back a digest's name gives the digest. */
  lemma {:induction false} DecodeEncode(d: Bytes)
    ensures Decode(Encode(d)) == Some(d)
    decreases |d|
  {
    if |d| > 0 {
      var s := Encode(d);
      assert s == ByteToHex(d[0]) + Encode(d[1..]);
      assert s[2..] == Encode(d[1..]);
      DecodeEncode(d[1..]);
      ByteRoundTrip(d[0]);
      assert d == [d[0]] + d[1..];
    }
  }

  /** Every even-length lowercase hex string is the name of some byte string. */
  lemma {:induction false} EncodeDecode(s: string)
    requires |s| % 2 == 0 && IsHexString(s)
    ensures Decode(s).Some? && Encode(Decode(s).value) == s
    decreases |s|
  {
    if |s| > 0 {
      EncodeDecode(s[2..]);
      var b := HexToByte(s[0], s[1]);
      PairRoundTrip(s[0], s[1]);
      var d := Decode(s).value;
      assert d == [b] + Decode(s[2..]).value;
      assert d[1..] == Decode(s[2..]).value;
      assert s == [s[0], s[1]] + s[2..];
    }
  }

  /** Printing the byte read from two digits gives back those digits. */
  lemma PairRoundTrip(hi: char, lo: char)
    requires IsHexDigit(hi) && IsHexDigit(lo)
    ensures ByteToHex(HexToByte(hi, lo)) == [hi, lo]
  {
    var v := 16 * DigitValue(hi) + DigitValue(lo);
    assert Unsigned(HexToByte(hi, lo)) == v;
    assert v / 16 == DigitValue(hi) && v % 16 == DigitValue(lo);
  }

  /** Distinct digests get distinct names. */
  lemma EncodeInjective(d1: Bytes, d2: Bytes)
    requires Encode(d1) == Encode(d2)
    ensures d1 == d2
  {
    DecodeEncode(d1);
    DecodeEncode(d2);
  }

  /** The name of a SHA-256 digest is a blob name. */
  lemma DigestNameIsHash(d: Digest)
    ensures IsHash(Encode(d))
  {
  }
}

=== FILE: paths.dfy ===
/** Request-path parsing and origin URL building in CustomHttpServer.kt.
    The HEAD route and the GET route use two different regular expressions;
    both are modelled, each next to a literal reading of its pattern. */
module Paths {
  import opened Base
  import opened Hex
  import opened Text

  predicate NoSlash(s: string) {
    forall i :: 0 <= i < |s| ==> s[i] != '/'
  }

  // ---------------------------------------------------------------------
  // HEAD: `extractHash`, pattern  /([0-9a-f]{64})(?:\.[^/]+)?$
  // ---------------------------------------------------------------------

  /** A line terminator in the sense of Android's java.util.regex without
      UNIX_LINES. That implementation is ICU's, which adds vertical tab and
      form feed to the desktop JDK's set. */
  predicate IsLineTerminator(c: char) {
    || c == '\n' || c == '\U{b}' || c == '\U{c}' || c == '\r'
    || c == '\U{85}' || c == '\U{2028}' || c == '\U{2029}'
  }

  /** Where `$` matches when MULTILINE is off: at the end of the input, or
      just before a line terminator that ends the input (`\r\n` counts as
      one terminator, and `$` never matches between its two characters). */
  predicate EndAnchor(s: string, i: nat) {
    || i == |s|
    || (i + 1 == |s| && IsLineTerminator(s[i]) && !(s[i] == '\n' && i > 0 && s[i - 1] == '\r'))
    || (i + 2 == |s| && s[i] == '\r' && s[i + 1] == '\n')
  }

  /** The optional group `(?:\.[^/]+)` spans s[i..j] and `$` matches at j. */
  ghost predicate ExtensionThenEnd(s: string, i: nat, j: nat) {
    i + 2 <= j <= |s| && s[i] == '.' && NoSlash(s[i + 1..j]) && EndAnchor(s, j)
  }

  /** The HEAD pattern, read literally, matches from index p; group 1 is s[p+1..p+65]. */
  ghost predicate HeadMatchAt(s: string, p: nat) {
    && p + 65 <= |s|
    && s[p] == '/'
    && IsHexString(s[p + 1..p + 65])
    && (EndAnchor(s, p + 65) || exists j: nat :: HashThenExtension(s, p, j))
  }

  /** After the '/' at p and the 64 digits, the extension group runs to j. */
  ghost predicate HashThenExtension(s: string, p: nat, j: nat) {
    ExtensionThenEnd(s, p + 65, j)
  }

  /** Index of the last '/', if any. */
  function LastSlash(s: string): (r: Option<nat>)
    ensures r.Some? ==> r.value < |s| && s[r.value] == '/'
    ensures r.Some? ==> forall k :: r.value < k < |s| ==> s[k] != '/'
    ensures r.None? ==> forall k :: 0 <= k < |s| ==> s[k] != '/'
    decreases |s|
  {
    if |s| == 0 then None
    else if s[|s| - 1] == '/' then Some(|s| - 1)
    else LastSlash(s[..|s| - 1])
  }

  lemma LastSlashIs(s: string, p: nat)
    requires p < |s| && s[p] == '/'
    requires forall k :: p < k < |s| ==> s[k] != '/'
    ensures LastSlash(s) == Some(p)
  {
  }

  /** What may follow the 64 digits in the last path segment. */
  predicate TailAccepted(t: string) {
    || |t| == 0
    || (|t| == 1 && IsLineTerminator(t[0]))
    || t == "\r\n"
    || (|t| >= 2 && t[0] == '.')
  }

  /** `extractHash`: the 64 digits that open the last path segment, when the
      segment has nothing else, a final line terminator, or a '.' and at
      least one more character. */
  function ExtractHash(path: string): (r: Option<string>)
    ensures r.Some? ==> IsHash(r.value)
  {
    match LastSlash(path)
    case None => None
    case Some(p) =>
      var segment := path[p + 1..];
      if |segment| >= 64 && IsHexString(segment[..64]) && TailAccepted(segment[64..])
      then Some(segment[..64])
      else None
  }

  /** Any match of the HEAD pattern starts at the last '/', so there is at
      most one and it is the leftmost. */
  lemma HeadMatchIsLastSlash(s: string, p: nat)
    requires HeadMatchAt(s, p)
    ensures LastSlash(s) == Some(p)
  {
  }

  /** `extractHash(path)` is `h` exactly when the HEAD pattern matches the
      path with `h` as its captured group. */
  lemma ExtractHashMatchesPattern(path: string, h: string)
    ensures ExtractHash(path) == Some(h) <==> exists p: nat :: HeadMatchAt(path, p) && path[p + 1..p + 65] == h
  {
    if ExtractHash(path) == Some(h) {
      ExtractHashSound(path);
    }
    if exists p: nat :: HeadMatchAt(path, p) && path[p + 1..p + 65] == h {
      var p: nat :| HeadMatchAt(path, p) && path[p + 1..p + 65] == h;
      ExtractHashComplete(path, p);
    }
  }

  /** What `extractHash` returns is a match of the HEAD pattern at the last '/'. */
  lemma ExtractHashSound(path: string)
    requires ExtractHash(path).Some?
    ensures var p := LastSlash(path).value;
            HeadMatchAt(path, p) && path[p + 1..p + 65] == ExtractHash(path).value
  {
    var p := LastSlash(path).value;
    var segment := path[p + 1..];
    var i := p + 65;
    var t := segment[64..];
    assert path[p + 1..i] == segment[..64];
    assert t == path[i..];
    if |t| >= 2 && t[0] == '.' {
      var rest := path[i + 1..|path|];
      assert NoSlash(rest) by {
        forall k | 0 <= k < |rest| ensures rest[k] != '/' {
          assert rest[k] == path[i + 1 + k];
        }
      }
      assert HashThenExtension(path, p, |path|);
    } else {
      assert path[i - 1] == segment[63];
      assert EndAnchor(path, i);
    }
  }

  /** Every match of the HEAD pattern is what `extractHash` returns. */
  lemma ExtractHashComplete(path: string, p: nat)
    requires HeadMatchAt(path, p)
    ensures ExtractHash(path) == Some(path[p + 1..p + 65])
  {
    HeadMatchIsLastSlash(path, p);
    var segment := path[p + 1..];
    var i := p + 65;
    var t := segment[64..];
    assert segment[..64] == path[p + 1..i];
    assert t == path[i..];
    if !EndAnchor(path, i) {
      var j: nat :| HashThenExtension(path, p, j);
      assert t[0] == path[i];
    }
    assert TailAccepted(t);
  }

  // ---------------------------------------------------------------------
  // GET: unanchored first match of  ([0-9a-f]{64})(\.[a-z0-9]+)?
  // ---------------------------------------------------------------------

  /** Group 1 of the GET pattern can match at index p. */
  predicate HexRunAt(s: string, p: nat) {
    p + 64 <= |s| && IsHexString(s[p..p + 64])
  }

  /** `Regex.find`: the leftmost index at or after `from` where the pattern matches. */
  function FindHexRun(s: string, from: nat): (r: Option<nat>)
    requires from <= |s|
    ensures r.Some? ==> from <= r.value && HexRunAt(s, r.value)
    ensures r.Some? ==> forall q: nat :: from <= q < r.value ==> !HexRunAt(s, q)
    ensures r.None? ==> forall q: nat :: from <= q ==> !HexRunAt(s, q)
    decreases |s| - from
  {
    if HexRunAt(s, from) then Some(from)
    else if from + 64 >= |s| then None
    else FindHexRun(s, from + 1)
  }

  /** The character class `[a-z0-9]`. */
  predicate IsExtensionChar(c: char) {
    'a' <= c <= 'z' || '0' <= c <= '9'
  }

  /** Length of the longest `[a-z0-9]` run starting at index i. */
  function ExtensionRun(s: string, i: nat): (n: nat)
    requires i <= |s|
    ensures i + n <= |s|
    ensures forall k :: i <= k < i + n ==> IsExtensionChar(s[k])
    ensures i + n == |s| || !IsExtensionChar(s[i + n])
    decreases |s| - i
  {
    if i < |s| && IsExtensionChar(s[i]) then 1 + ExtensionRun(s, i + 1) else 0
  }

  /** Group 2, `(\.[a-z0-9]+)?`, at index i: greedy, so '.' followed by the
      whole run; `""` when no '.' plus one such character follows (Kotlin's
      `groupValues` gives `""` for a group that did not take part). */
  function ExtensionAt(s: string, i: nat): (e: string)
    requires i <= |s|
    ensures e == "" <==> !(i + 1 < |s| && s[i] == '.' && IsExtensionChar(s[i + 1]))
    ensures e != "" ==> |e| >= 2 && e[0] == '.' && i + |e| <= |s| && s[i..i + |e|] == e
    ensures e != "" ==> forall k :: 1 <= k < |e| ==> IsExtensionChar(e[k])
    ensures e != "" ==> i + |e| == |s| || !IsExtensionChar(s[i + |e|])
  {
    if i + 1 < |s| && s[i] == '.' && IsExtensionChar(s[i + 1])
    then s[i..i + 1 + ExtensionRun(s, i + 1)]
    else ""
  }

  datatype GetTarget = GetTarget(hash: string, extension: string)

  /** The GET route's parse: the first run of 64 lowercase hex digits
      anywhere in the path, and the extension right after it. */
  function ParseGetPath(path: string): (r: Option<GetTarget>)
    ensures r.Some? <==> exists p: nat :: HexRunAt(path, p)
    ensures r.Some? ==> IsHash(r.value.hash)
    ensures r.Some? ==> exists p: nat :: && HexRunAt(path, p)
                                        && (forall q: nat :: q < p ==> !HexRunAt(path, q))
                                        && r.value.hash == path[p..p + 64]
                                        && r.value.extension == ExtensionAt(path, p + 64)
  {
    match FindHexRun(path, 0)
    case None => None
    case Some(p) => Some(GetTarget(path[p..p + 64], ExtensionAt(path, p + 64)))
  }

  // ---------------------------------------------------------------------
  // `buildUrl`
  // ---------------------------------------------------------------------

  predicate HasScheme(s: string) {
    StartsWith(s, "http://") || StartsWith(s, "https://")
  }

  /** The server as `buildUrl` uses it: `https://` is put in front only when
      neither scheme prefix is already there (the test is case-sensitive). */
  function WithScheme(server: string): (s: string)
    ensures HasScheme(s)
    ensures EndsWith(s, server) && |s| <= |server| + 8
    ensures HasScheme(server) ==> s == server
    ensures !HasScheme(server) ==> s == "https://" + server
  {
    if HasScheme(server) then
      assert server[|server| - |server|..] == server;
      server
    else
      ConcatAffixes("https://", server);
      "https://" + server
  }

  /** `buildUrl(server, hash, extension)`. */
  function BuildUrl(server: string, hash: string, extension: string): (url: string)
    ensures HasScheme(url)
    ensures EndsWith(url, "/" + hash + extension)
    ensures StartsWith(url, WithScheme(server))
    ensures |url| == |WithScheme(server)| + 1 + |hash| + |extension|
  {
    var base := WithScheme(server);
    var tail := "/" + hash + extension;
    ConcatAffixes(base, tail);
    var scheme := if StartsWith(base, "http://") then "http://" else "https://";
    StartsWithTransitive(base + tail, base, scheme);
    base + tail
  }

  /** Normalising twice adds nothing: a server that already carries a scheme
      never gets a second one. */
  lemma WithSchemeIdempotent(server: string)
    ensures WithScheme(WithScheme(server)) == WithScheme(server)
    ensures BuildUrl(WithScheme(server), "", "") == BuildUrl(server, "", "")
  {
  }

  // ---------------------------------------------------------------------
  // How the two routes compare
  // ---------------------------------------------------------------------

  /** A bare blob name is accepted by both routes, with no extension. */
  lemma {:induction false} BlobNameAcceptedByBothRoutes(h: string)
    requires IsHash(h)
    ensures ExtractHash("/" + h) == Some(h)
    ensures ParseGetPath("/" + h) == Some(GetTarget(h, ""))
  {
    var path := "/" + h;
    assert path[1..65] == h;
    assert EndAnchor(path, 65);
    assert HeadMatchAt(path, 0);
    ExtractHashMatchesPattern(path, h);
    assert HexRunAt(path, 1);
    assert !HexRunAt(path, 0) by { assert path[0..64][0] == '/'; }
    assert FindHexRun(path, 0) == Some(1);
  }

  /** HEAD also accepts a bare blob name followed by one line terminator,
      vertical tab and form feed included. */
  lemma {:induction false} HeadAcceptsFinalTerminator(h: string, c: char)
    requires IsHash(h) && IsLineTerminator(c)
    ensures ExtractHash("/" + h + [c]) == Some(h)
  {
    var path := "/" + h + [c];
    assert path[1..65] == h;
    assert path[64] == h[63] && path[65] == c;
    assert EndAnchor(path, 65);
    assert HeadMatchAt(path, 0);
    ExtractHashMatchesPattern(path, h);
  }

  /** `/<name>.<ext>` is accepted by HEAD. */
  lemma {:induction false} HeadAcceptsNameWithExtension(h: string, x: string)
    requires IsHash(h)
    requires |x| >= 1 && forall k :: 0 <= k < |x| ==> IsExtensionChar(x[k])
    ensures ExtractHash("/" + h + "." + x) == Some(h)
  {
    var path := "/" + h + "." + x;
    assert path[1..65] == h;
    assert path[65] == '.';
    assert path[66..] == x;
    assert NoSlash(path[66..|path|]) by {
      forall k | 0 <= k < |x| ensures path[66..|path|][k] != '/' {
        assert path[66..|path|][k] == x[k];
      }
    }
    assert HashThenExtension(path, 0, |path|);
    assert HeadMatchAt(path, 0);
    ExtractHashMatchesPattern(path, h);
  }

  /** `/<name>.<ext>` is accepted by GET, which also keeps the extension. */
  lemma {:induction false} GetAcceptsNameWithExtension(h: string, x: string)
    requires IsHash(h)
    requires |x| >= 1 && forall k :: 0 <= k < |x| ==> IsExtensionChar(x[k])
    ensures ParseGetPath("/" + h + "." + x) == Some(GetTarget(h, "." + x))
  {
    var path := "/" + h + "." + x;
    assert path[1..65] == h;
    assert HexRunAt(path, 1);
    assert !HexRunAt(path, 0) by { assert path[0..64][0] == '/'; }
    assert FindHexRun(path, 0) == Some(1);
    assert forall k :: 65 < k < |path| ==> path[k] == x[k - 66];
    ExtensionToEnd(path, 65);
    assert path[65..] == "." + x;
  }

  /** A '.' followed by `[a-z0-9]` characters up to the end is taken whole. */
  lemma ExtensionToEnd(s: string, i: nat)
    requires i + 1 < |s| && s[i] == '.'
    requires forall k :: i < k < |s| ==> IsExtensionChar(s[k])
    ensures ExtensionAt(s, i) == s[i..]
  {
    var n := ExtensionRun(s, i + 1);
    assert i + 1 + n == |s|;
  }

  /** The GET route accepts the hash in any position, e.g. `/x/<h>/y`,
      where `extractHash` (and so HEAD) rejects the same path. */
  lemma {:induction false} GetAcceptsPathHeadRejects(h: string)
    requires IsHash(h)
    ensures ParseGetPath("/x/" + h + "/y") == Some(GetTarget(h, ""))
    ensures ExtractHash("/x/" + h + "/y") == None
  {
    var path := "/x/" + h + "/y";
    assert path[3..67] == h;
    assert HexRunAt(path, 3);
    assert !HexRunAt(path, 0) by { assert path[0..64][0] == '/'; }
    assert !HexRunAt(path, 1) by { assert path[1..65][0] == 'x'; }
    assert !HexRunAt(path, 2) by { assert path[2..66][0] == '/'; }
    assert FindHexRun(path, 2) == Some(3);
    assert FindHexRun(path, 0) == Some(3);
    assert path[67] == '/' && path[68] == 'y' && |path| == 69;
    LastSlashIs(path, 67);
  }

  /** A run of more than 64 digits: GET takes its first 64 and no extension,
      HEAD rejects it. */
  lemma {:induction false} GetTruncatesLongRun(h: string, more: string)
    requires IsHash(h)
    requires 1 <= |more| && IsHexString(more)
    ensures ParseGetPath("/" + h + more) == Some(GetTarget(h, ""))
    ensures ExtractHash("/" + h + more) == None
  {
    var path := "/" + h + more;
    assert path[1..65] == h;
    assert HexRunAt(path, 1);
    assert !HexRunAt(path, 0) by { assert path[0..64][0] == '/'; }
    assert FindHexRun(path, 0) == Some(1);
    assert path[65] == more[0];
    assert ExtensionAt(path, 65) == "";
    assert forall k :: 0 < k < |path| ==> path[k] != '/' by {
      forall k | 0 < k < |path| ensures path[k] != '/' {
        if k < 65 { assert path[k] == h[k - 1]; } else { assert path[k] == more[k - 65]; }
      }
    }
    LastSlashIs(path, 0);
    assert path[1..][64..] == more;
  }
}

=== FILE: retrieval.dfy ===
/** Proxy retrieval on a local miss: `tryFetchAndStream` against one
    server, the walk over the `xs` hint servers, and the walk over the
    servers each `as` author publishes (BUD-10 hints, BUD-03 server lists). */
module Retrieval {
  import opened Base
  import Hex
  import opened Paths
  import opened Transport
  import opened Blobs
  import opened Eviction
  import opened Store
  import opened Tee
  import opened Text

  /** The upstream body once the response is known to be usable:
      - `contentType` is the upstream `Content-Type` header, if any;
      - `setup` says whether the steps before streaming throw;
      - `chunks` are the buffers `read` returns up to end of stream;
      - `fault` is where the copy loop throws, if anywhere;
      - `moveFails` says whether `Files.move` into the store throws. */
  datatype Upstream = Upstream(contentType: Option<string>, setup: Setup, chunks: seq<Bytes>, fault: Fault, moveFails: bool)

  /** The steps between the body check and the copy loop: parsing the
      content type and creating the temporary file (`FailsBeforeTempFile`),
      then copying the upstream headers onto the response (`FailsAfterTempFile`). */
  datatype Setup = Ready | FailsBeforeTempFile | FailsAfterTempFile

  /** What `execute()` gives: an exception, or a status code and a body
      that may be absent. */
  datatype Exchange = ConnectFailure | Reply(code: int, body: Option<Upstream>)

  /** Everything outside the request: the settings `updateClients` last
      applied and the current ones, the network, the relay lookup of an
      author's servers, the filesystem, the clock and the MIME detector. */
  datatype Env = Env(
    configured: Settings,
    current: Settings,
    network: (string, Route) -> Exchange,
    authorServers: string -> seq<string>,
    fs: FsOracle,
    now: int,
    detect: Bytes -> string)

  /** What was streamed to the client: status, content type and the bytes written. */
  datatype Delivery = Delivery(status: int, contentType: string, body: Bytes)

  /** One `tryFetchAndStream`: its boolean result, the streamed response if
      streaming started, the store afterwards, and whether the temporary
      file was left behind. */
  datatype Attempt = Attempt(ok: bool, streamed: Option<Delivery>, after: Store, tempLeft: bool)

  /** OkHttp's `isSuccessful`. */
  predicate IsSuccessful(code: int) {
    200 <= code <= 299
  }

  /** The content type of the streamed response: the upstream one, or
      `application/octet-stream` when the header is missing. */
  function ServedType(contentType: Option<string>): string {
    if contentType.Some? then contentType.value else "application/octet-stream"
  }

  /** The exchange with `server` for this blob, over the client the
      transport rule picks for the URL. */
  function Fetch(server: string, hash: string, ext: string, env: Env): (x: Exchange)
    ensures exists route :: x == env.network(BuildUrl(server, hash, ext), route)
                            && (route == TorProxy <==>
                                  env.configured.useTor
                                  && (Contains(BuildUrl(server, hash, ext), ".onion")
                                      || env.current.useTorForAllUrls || env.configured.useTorForAllUrls))
  {
    var url := BuildUrl(server, hash, ext);
    env.network(url, RouteFor(env.configured, env.current, url))
  }

  /** The exchange gives a usable body: a 2xx status and a non-null body. */
  predicate Usable(x: Exchange) {
    x.Reply? && IsSuccessful(x.code) && x.body.Some?
  }

  /** `tryFetchAndStream`. Every exception, a broken pipe included, ends in
      `false`; the temporary file is committed under the requested `hash`
      without comparing the digest fed during the copy. */
  function TryFetchAndStream(st: Store, server: string, hash: string, ext: string, env: Env): (a: Attempt)
    requires Valid(st)
    ensures Valid(a.after)
    ensures !a.ok ==> a.after == st
    ensures !Usable(Fetch(server, hash, ext, env)) ==> !a.ok && !a.tempLeft && a.streamed.None?
    ensures a.tempLeft ==> !a.ok && a.streamed.None?
    ensures a.tempLeft <==> Usable(Fetch(server, hash, ext, env)) && Fetch(server, hash, ext, env).body.value.setup == FailsAfterTempFile
    ensures a.streamed.Some? ==> IsSuccessful(a.streamed.value.status)
    ensures a.ok ==> Usable(Fetch(server, hash, ext, env))
    ensures a.ok ==>
              var x := Fetch(server, hash, ext, env);
              var body := Flatten(x.body.value.chunks);
              && a.streamed == Some(Delivery(x.code, ServedType(x.body.value.contentType), body))
              && forall k :: k in a.after.files ==>
                   if k == hash then a.after.files[k] == Blob(body, env.now)
                   else k in st.files && a.after.files[k] == st.files[k]
  {
    var x := Fetch(server, hash, ext, env);
    if !Usable(x) then Attempt(false, None, st, false)
    else
      var up := x.body.value;
      match up.setup
      case FailsBeforeTempFile => Attempt(false, None, st, false)
      case FailsAfterTempFile => Attempt(false, None, st, true)
      case Ready =>
        var s := Expected(up.chunks, up.fault);
        var sent := Some(Delivery(x.code, ServedType(up.contentType), s.toClient));
        if s.outcome != Completed then Attempt(false, sent, st, false)
        else
          match MoveFile(st, Blob(s.toFile, env.now), hash, up.moveFails, env.fs)
          case Failure(_) => Attempt(false, sent, st, false)
          case Success(next) => Attempt(true, sent, next, false)
  }

  /** An attempt succeeds exactly when the reply is usable, nothing throws
      before or during the copy, and the move into the store succeeds. */
  lemma AttemptSucceedsIff(st: Store, server: string, hash: string, ext: string, env: Env)
    requires Valid(st)
    ensures var x := Fetch(server, hash, ext, env);
            TryFetchAndStream(st, server, hash, ext, env).ok <==>
              && Usable(x)
              && x.body.value.setup == Ready
              && !Fires(x.body.value.fault, |x.body.value.chunks|)
              && !x.body.value.moveFails
  {
  }

  /** The client going away mid-stream is not fatal: the attempt is a
      failure like any other and the store is untouched. */
  lemma BrokenPipeIsOrdinaryFailure(st: Store, server: string, hash: string, ext: string, env: Env)
    requires Valid(st)
    requires var x := Fetch(server, hash, ext, env);
             && Usable(x) && x.body.value.setup == Ready
             && x.body.value.fault.ClientWriteFault? && x.body.value.fault.brokenPipe
             && x.body.value.fault.at < |x.body.value.chunks|
    ensures var a := TryFetchAndStream(st, server, hash, ext, env);
            !a.ok && a.after == st && !a.tempLeft
  {
  }

  /** An exception inside the copy loop ends the attempt in failure with the
      temporary file deleted and the store untouched; the client has by then
      received what the loop wrote to it before the exception. */
  lemma StreamErrorCleansUp(st: Store, server: string, hash: string, ext: string, env: Env)
    requires Valid(st)
    requires var x := Fetch(server, hash, ext, env);
             && Usable(x) && x.body.value.setup == Ready
             && Fires(x.body.value.fault, |x.body.value.chunks|)
    ensures var x := Fetch(server, hash, ext, env);
            var a := TryFetchAndStream(st, server, hash, ext, env);
            && !a.ok && !a.tempLeft && a.after == st
            && a.streamed == Some(Delivery(x.code, ServedType(x.body.value.contentType),
                                           Expected(x.body.value.chunks, x.body.value.fault).toClient))
  {
  }

  /** A move that throws after the whole body was streamed still makes the
      attempt a failure: the client has received the complete body with the
      upstream status, yet the walk goes on to the next server. */
  lemma MoveFailureAfterFullStream(st: Store, server: string, hash: string, ext: string, env: Env)
    requires Valid(st)
    requires var x := Fetch(server, hash, ext, env);
             && Usable(x) && x.body.value.setup == Ready
             && !Fires(x.body.value.fault, |x.body.value.chunks|) && x.body.value.moveFails
    ensures var x := Fetch(server, hash, ext, env);
            var a := TryFetchAndStream(st, server, hash, ext, env);
            && !a.ok && a.after == st && !a.tempLeft
            && a.streamed == Some(Delivery(x.code, ServedType(x.body.value.contentType), Flatten(x.body.value.chunks)))
  {
  }

  /** The blob is committed under the requested name even when its content
      hashes to something else, and the directory is then no longer
      content-addressed. */
  lemma CommitIgnoresDigest(st: Store, sha: Sha256, server: string, hash: string, ext: string, env: Env)
    requires Valid(st)
    requires var x := Fetch(server, hash, ext, env);
             && Usable(x) && x.body.value.setup == Ready
             && x.body.value.fault == NoFault && !x.body.value.moveFails
             && (!env.fs.pruneListed || Total(st.files) + |Flatten(x.body.value.chunks)| <= HighWaterMark)
             && Hex.Encode(sha(Flatten(x.body.value.chunks))) != hash
    ensures var a := TryFetchAndStream(st, server, hash, ext, env);
            var body := Flatten(Fetch(server, hash, ext, env).body.value.chunks);
            && a.ok && hash in a.after.files && a.after.files[hash].bytes == body
            && !Addressed(a.after.files, sha)
  {
    var up := Fetch(server, hash, ext, env).body.value;
    var body := Flatten(up.chunks);
    assert Expected(up.chunks, up.fault).toFile == body;
    MoveCanBreakAddressing(st, sha, Blob(body, env.now), hash, env.fs);
    MoveThenGet(st, Blob(body, env.now), hash, env.fs, env.now);
    var moved := MoveFile(st, Blob(body, env.now), hash, false, env.fs);
    assert TryFetchAndStream(st, server, hash, ext, env).after == moved.value;
  }

  /** The result of a walk over candidate servers: whether one succeeded,
      the store afterwards, the servers tried in order, the authors whose
      server lists were looked up, how many temporary files were left
      behind, and the streamed response of the successful attempt. */
  datatype Search = Search(ok: bool, after: Store, tried: seq<string>, looked: seq<string>, leaked: nat, served: Option<Delivery>)

  function Leak(a: Attempt): nat {
    if a.tempLeft then 1 else 0
  }

  /** The attempt against each server, all starting from the store `st`. */
  function Attempts(st: Store, hash: string, ext: string, env: Env): string -> Attempt
    requires Valid(st)
  {
    server => TryFetchAndStream(st, server, hash, ext, env)
  }

  /** `for (server in servers) { if (tryFetchAndStream(...)) return }`:
      servers are tried in order and the walk stops at the first success.
      A failed attempt leaves the store as it was, so every attempt starts
      from the same store `st`. */
  function TryServers(st: Store, servers: seq<string>, attempt: string -> Attempt): (r: Search)
    ensures r.looked == []
    ensures r.ok ==> 1 <= |r.tried| <= |servers|
    ensures !r.ok ==> r.tried == servers && r.after == st && r.served.None?
    decreases |servers|
  {
    if |servers| == 0 then Search(false, st, [], [], 0, None)
    else
      var a := attempt(servers[0]);
      if a.ok then Search(true, a.after, [servers[0]], [], 0, a.streamed)
      else
        var rest := TryServers(st, servers[1..], attempt);
        assert servers == [servers[0]] + servers[1..];
        rest.(tried := [servers[0]] + rest.tried, leaked := Leak(a) + rest.leaked)
  }

  /** The temporary files the attempts against `servers` leave behind. */
  function Leaks(servers: seq<string>, attempt: string -> Attempt): nat
    decreases |servers|
  {
    if |servers| == 0 then 0 else Leak(attempt(servers[0])) + Leaks(servers[1..], attempt)
  }

  /** `leaked` counts one temporary file for every attempt the walk made
      that failed after creating it; the successful attempt, if any, leaves none. */
  lemma {:induction false} TryServersLeaks(st: Store, servers: seq<string>, attempt: string -> Attempt)
    ensures var r := TryServers(st, servers, attempt);
            && (!r.ok ==> r.leaked == Leaks(servers, attempt))
            && (r.ok ==> r.leaked == Leaks(r.tried[..|r.tried| - 1], attempt))
    decreases |servers|
  {
    if |servers| > 0 && !attempt(servers[0]).ok {
      var rest := TryServers(st, servers[1..], attempt);
      TryServersLeaks(st, servers[1..], attempt);
      var t := [servers[0]] + rest.tried;
      if rest.ok {
        assert t[..|t| - 1] == [servers[0]] + rest.tried[..|rest.tried| - 1];
        assert (t[..|t| - 1])[1..] == rest.tried[..|rest.tried| - 1];
      }
    } else if |servers| > 0 {
      assert [servers[0]][..0] == [];
    }
  }

  /** The walk succeeds exactly when some server does; it then has tried the
      servers up to the first successful one, in order, and answers with
      that attempt; otherwise it has tried them all and the store is as it was. */
  lemma {:induction false} TryServersSpec(st: Store, servers: seq<string>, attempt: string -> Attempt)
    ensures var r := TryServers(st, servers, attempt);
            && (r.ok <==> exists i :: 0 <= i < |servers| && attempt(servers[i]).ok)
            && (r.ok ==>
                  && 0 < |r.tried| <= |servers| && r.tried == servers[..|r.tried|]
                  && (forall i :: 0 <= i < |r.tried| - 1 ==> !attempt(servers[i]).ok)
                  && var a := attempt(servers[|r.tried| - 1]);
                     a.ok && r.after == a.after && r.served == a.streamed)
            && (!r.ok ==> r.tried == servers && r.after == st && r.served.None?)
    decreases |servers|
  {
    if |servers| > 0 && !attempt(servers[0]).ok {
      var tail := servers[1..];
      var rest := TryServers(st, tail, attempt);
      TryServersSpec(st, tail, attempt);
      if rest.ok {
        var n := |rest.tried|;
        assert servers[..n + 1] == [servers[0]] + tail[..n];
        assert servers[n] == tail[n - 1];
        assert attempt(servers[n]).ok;
        forall i | 0 <= i < n ensures !attempt(servers[i]).ok {
          if i > 0 { assert servers[i] == tail[i - 1]; }
        }
      } else {
        forall i | 0 <= i < |servers| ensures !attempt(servers[i]).ok {
          if i > 0 { assert servers[i] == tail[i - 1]; }
        }
        assert servers == [servers[0]] + tail;
      }
    }
  }

  /** The servers of every author, in author order. */
  function AuthorCandidates(authors: seq<string>, lookup: string -> seq<string>): seq<string>
    decreases |authors|
  {
    if |authors| == 0 then [] else lookup(authors[0]) + AuthorCandidates(authors[1..], lookup)
  }

  /** Every server the GET route may try, in the order it tries them. */
  function Candidates(xs: seq<string>, authors: seq<string>, lookup: string -> seq<string>): seq<string> {
    xs + AuthorCandidates(authors, lookup)
  }

  /** Some server `author` publishes gives a success. */
  predicate AuthorSucceeds(st: Store, author: string, lookup: string -> seq<string>, attempt: string -> Attempt) {
    TryServers(st, lookup(author), attempt).ok
  }

  /** The author loop: look up one author's servers, try them, and go on to
      the next author only if none succeeded. */
  function FromAuthors(st: Store, authors: seq<string>, lookup: string -> seq<string>, attempt: string -> Attempt): (r: Search)
    ensures |r.looked| <= |authors| && r.looked == authors[..|r.looked|]
    ensures !r.ok ==> r.looked == authors && r.after == st
    ensures r.ok ==> 0 < |r.looked| && TryServers(st, lookup(r.looked[|r.looked| - 1]), attempt).ok
    decreases |authors|
  {
    if |authors| == 0 then Search(false, st, [], [], 0, None)
    else
      var a := TryServers(st, lookup(authors[0]), attempt);
      if a.ok then a.(looked := [authors[0]])
      else
        var rest := FromAuthors(st, authors[1..], lookup, attempt);
        assert authors[..|rest.looked| + 1] == [authors[0]] + authors[1..][..|rest.looked|];
        assert authors == [authors[0]] + authors[1..];
        Search(rest.ok, rest.after, a.tried + rest.tried, [authors[0]] + rest.looked,
               a.leaked + rest.leaked, rest.served)
  }

  /** The author loop looks up an author only after every author before it
      has failed, so on success the last author looked up is the first one
      whose servers give a success, and on failure every author failed. */
  lemma {:induction false} FromAuthorsStopsAtFirst(st: Store, authors: seq<string>, lookup: string -> seq<string>, attempt: string -> Attempt)
    ensures var r := FromAuthors(st, authors, lookup, attempt);
            && (r.ok ==> forall i :: 0 <= i < |r.looked| - 1 ==> !AuthorSucceeds(st, r.looked[i], lookup, attempt))
            && (!r.ok ==> forall i :: 0 <= i < |authors| ==> !AuthorSucceeds(st, authors[i], lookup, attempt))
    decreases |authors|
  {
    if |authors| > 0 && !AuthorSucceeds(st, authors[0], lookup, attempt) {
      FromAuthorsStopsAtFirst(st, authors[1..], lookup, attempt);
      var r := FromAuthors(st, authors, lookup, attempt);
      var rest := FromAuthors(st, authors[1..], lookup, attempt);
      assert r.looked == [authors[0]] + rest.looked;
      assert forall i :: 1 <= i < |r.looked| ==> r.looked[i] == rest.looked[i - 1];
      assert forall i :: 1 <= i < |authors| ==> authors[i] == authors[1..][i - 1];
    }
  }

  /** The miss path of the GET route: the `xs` servers first, then the
      authors' servers; relays are asked about an author only once every
      earlier candidate has failed. */
  function Retrieve(st: Store, xs: seq<string>, authors: seq<string>, lookup: string -> seq<string>, attempt: string -> Attempt): (r: Search)
    ensures |r.looked| <= |authors| && r.looked == authors[..|r.looked|]
    ensures TryServers(st, xs, attempt).ok ==> r.looked == []
    ensures !r.ok ==> r.looked == authors && r.after == st
    ensures r.ok && !TryServers(st, xs, attempt).ok ==> 0 < |r.looked|
    ensures r.ok && 0 < |r.looked| ==> TryServers(st, lookup(r.looked[|r.looked| - 1]), attempt).ok
    ensures r.ok ==> forall i :: 0 <= i < |r.looked| - 1 ==> !AuthorSucceeds(st, r.looked[i], lookup, attempt)
    ensures !r.ok ==> forall i :: 0 <= i < |authors| ==> !AuthorSucceeds(st, authors[i], lookup, attempt)
  {
    var x := TryServers(st, xs, attempt);
    if x.ok then x
    else
      FromAuthorsStopsAtFirst(st, authors, lookup, attempt);
      var r := FromAuthors(st, authors, lookup, attempt);
      r.(tried := x.tried + r.tried, leaked := x.leaked + r.leaked)
  }

  /** Walking `a + b` is walking `a`, then walking `b` if nothing in `a` succeeded. */
  lemma {:induction false} TryServersAppend(st: Store, a: seq<string>, b: seq<string>, attempt: string -> Attempt)
    ensures var ra := TryServers(st, a, attempt);
            var rb := TryServers(st, b, attempt);
            TryServers(st, a + b, attempt)
              == if ra.ok then ra else rb.(tried := a + rb.tried, leaked := ra.leaked + rb.leaked)
    decreases |a|
  {
    if |a| > 0 {
      assert (a + b)[0] == a[0];
      assert (a + b)[1..] == a[1..] + b;
      TryServersAppend(st, a[1..], b, attempt);
      assert a == [a[0]] + a[1..];
    } else {
      assert a + b == b;
    }
  }

  /** The nested author loop is the flat walk over the authors' servers. */
  lemma {:induction false} FromAuthorsIsFlat(st: Store, authors: seq<string>, lookup: string -> seq<string>, attempt: string -> Attempt)
    ensures FromAuthors(st, authors, lookup, attempt).(looked := [])
              == TryServers(st, AuthorCandidates(authors, lookup), attempt)
    decreases |authors|
  {
    if |authors| > 0 {
      FromAuthorsIsFlat(st, authors[1..], lookup, attempt);
      TryServersSpec(st, lookup(authors[0]), attempt);
      TryServersAppend(st, lookup(authors[0]), AuthorCandidates(authors[1..], lookup), attempt);
    }
  }

  /** The whole miss path is one walk over `Candidates`, in order, stopping
      at the first success. */
  lemma RetrieveIsFlat(st: Store, xs: seq<string>, authors: seq<string>, lookup: string -> seq<string>, attempt: string -> Attempt)
    ensures Retrieve(st, xs, authors, lookup, attempt).(looked := [])
              == TryServers(st, Candidates(xs, authors, lookup), attempt)
  {
    FromAuthorsIsFlat(st, authors, lookup, attempt);
    TryServersSpec(st, xs, attempt);
    TryServersAppend(st, xs, AuthorCandidates(authors, lookup), attempt);
  }

  /** Retrieval fails exactly when every candidate fails, including when
      there are none; a failed retrieval leaves the store as it was. */
  lemma RetrieveFailsIff(st: Store, xs: seq<string>, authors: seq<string>, lookup: string -> seq<string>, attempt: string -> Attempt)
    ensures var r := Retrieve(st, xs, authors, lookup, attempt);
            var c := Candidates(xs, authors, lookup);
            && (!r.ok <==> forall i :: 0 <= i < |c| ==> !attempt(c[i]).ok)
            && (!r.ok ==> r.tried == c && r.after == st)
  {
    RetrieveIsFlat(st, xs, authors, lookup, attempt);
    TryServersSpec(st, Candidates(xs, authors, lookup), attempt);
  }

  /** On success exactly the candidates up to the first successful one were
      tried, in order, and the response is that attempt's stream. */
  lemma RetrieveStopsAtFirstSuccess(st: Store, xs: seq<string>, authors: seq<string>, lookup: string -> seq<string>, attempt: string -> Attempt)
    ensures var r := Retrieve(st, xs, authors, lookup, attempt);
            var c := Candidates(xs, authors, lookup);
            r.ok ==>
              && 0 < |r.tried| <= |c| && r.tried == c[..|r.tried|]
              && (forall i :: 0 <= i < |r.tried| - 1 ==> !attempt(c[i]).ok)
              && var a := attempt(c[|r.tried| - 1]);
                 a.ok && r.after == a.after && r.served == a.streamed
  {
    RetrieveIsFlat(st, xs, authors, lookup, attempt);
    TryServersSpec(st, Candidates(xs, authors, lookup), attempt);
  }

  /** A failed retrieval leaves one temporary file behind for every
      candidate whose attempt failed after creating it. */
  lemma RetrieveLeaks(st: Store, xs: seq<string>, authors: seq<string>, lookup: string -> seq<string>, attempt: string -> Attempt)
    ensures var r := Retrieve(st, xs, authors, lookup, attempt);
            !r.ok ==> r.leaked == Leaks(Candidates(xs, authors, lookup), attempt)
  {
    RetrieveIsFlat(st, xs, authors, lookup, attempt);
    TryServersLeaks(st, Candidates(xs, authors, lookup), attempt);
  }

  /** What the miss path serves is always a 2xx answer from the server that succeeded. */
  lemma RetrieveServesSuccess(st: Store, hash: string, ext: string, xs: seq<string>, authors: seq<string>, env: Env)
    requires Valid(st)
    ensures var r := Retrieve(st, xs, authors, env.authorServers, Attempts(st, hash, ext, env));
            r.ok ==> r.served.Some? && IsSuccessful(r.served.value.status)
  {
    var attempt := Attempts(st, hash, ext, env);
    var r := Retrieve(st, xs, authors, env.authorServers, attempt);
    RetrieveStopsAtFirstSuccess(st, xs, authors, env.authorServers, attempt);
    if r.ok {
      var c := Candidates(xs, authors, env.authorServers);
      var a := TryFetchAndStream(st, c[|r.tried| - 1], hash, ext, env);
      assert attempt(c[|r.tried| - 1]) == a;
    }
  }

  /** Every store the miss path can leave behind is valid. */
  lemma RetrieveKeepsValid(st: Store, hash: string, ext: string, xs: seq<string>, authors: seq<string>, env: Env)
    requires Valid(st)
    ensures Valid(Retrieve(st, xs, authors, env.authorServers, Attempts(st, hash, ext, env)).after)
  {
    RetrieveStopsAtFirstSuccess(st, xs, authors, env.authorServers, Attempts(st, hash, ext, env));
  }

  /** A broken pipe on one server does not stop the walk: the next server is tried. */
  lemma BrokenPipeMovesOn(st: Store, servers: seq<string>, hash: string, ext: string, env: Env)
    requires Valid(st) && |servers| > 0
    requires var x := Fetch(servers[0], hash, ext, env);
             && Usable(x) && x.body.value.setup == Ready
             && x.body.value.fault.ClientWriteFault? && x.body.value.fault.brokenPipe
             && x.body.value.fault.at < |x.body.value.chunks|
    ensures var r := TryServers(st, servers, Attempts(st, hash, ext, env));
            var rest := TryServers(st, servers[1..], Attempts(st, hash, ext, env));
            r.ok == rest.ok && r.after == rest.after && r.tried == [servers[0]] + rest.tried
  {
    BrokenPipeIsOrdinaryFailure(st, servers[0], hash, ext, env);
  }
}

=== FILE: router.dfy ===
/** The routes `startKtorHttpServer` installs: OPTIONS and HEAD on `/`, and
    OPTIONS, GET and HEAD on `/{path...}`. */
module Router {
  import opened Base
  import Hex
  import opened Text
  import opened Paths
  import opened Blobs
  import opened Store
  import opened Retrieval

  datatype Method = Get | Head | Options

  /** The parts of a request the routes read: the method, the path, the
      first `If-None-Match` value and the `xs` and `as` query parameters in
      query order. */
  datatype Request = Request(verb: Method, path: string, ifNoneMatch: Option<string>, xs: seq<string>, authors: seq<string>)

  datatype Body = NoBody | Text(text: string) | Content(bytes: Bytes)

  /** Status, the headers the route sets, and the body. */
  datatype Response = Response(status: int, headers: map<string, string>, body: Body)

  /** A handled request: the response, the store afterwards, the servers
      contacted and the authors whose server lists were looked up. */
  datatype Handled = Handled(response: Response, after: Store, tried: seq<string>, looked: seq<string>)

  /** The CORS answer both OPTIONS routes give. */
  const CorsHeaders: map<string, string> := map[
    "Access-Control-Allow-Origin" := "*",
    "Access-Control-Allow-Methods" := "GET, HEAD, PUT, DELETE",
    "Access-Control-Allow-Headers" := "*",
    "Access-Control-Max-Age" := "86400"]

  /** The entity tag the conditional check compares against: the hash in
      double quotes. */
  function QuotedETag(hash: string): (q: string)
    ensures |q| == |hash| + 2 && q[0] == '"' && q[|q| - 1] == '"'
    ensures q[1..|q| - 1] == hash
  {
    "\"" + hash + "\""
  }

  /** The GET route. */
  function HandleGet(st: Store, req: Request, env: Env): (h: Handled)
    requires Valid(st)
    ensures Valid(h.after)
  {
    match ParseGetPath(req.path)
    case None => Handled(Response(400, map[], Text("Invalid SHA-256 hash")), st, [], [])
    case Some(target) =>
      var look := GetFileByHash(st, target.hash, env.now);
      if look.file.Some? then
        var bytes := look.file.value;
        if req.ifNoneMatch == Some(QuotedETag(target.hash)) then
          Handled(Response(304, map[], NoBody), look.after, [], [])
        else
          Handled(Response(200, map["Content-Type" := env.detect(bytes), "ETag" := target.hash], Content(bytes)),
                  look.after, [], [])
      else
        var attempt := Attempts(st, target.hash, target.extension, env);
        var r := Retrieve(st, req.xs, req.authors, env.authorServers, attempt);
        RetrieveStopsAtFirstSuccess(st, req.xs, req.authors, env.authorServers, attempt);
        if r.ok then
          var d := r.served.value;
          Handled(Response(d.status, map["Content-Type" := d.contentType], Content(d.body)), r.after, r.tried, r.looked)
        else
          Handled(Response(404, map[], NoBody), st, r.tried, r.looked)
  }

  /** The HEAD route on `/{path...}`. */
  function HandleHead(st: Store, path: string, env: Env): (h: Handled)
    ensures h.tried == [] && h.looked == []
  {
    match ExtractHash(path)
    case None => Handled(Response(400, map[], NoBody), st, [], [])
    case Some(hash) =>
      var look := GetFileByHash(st, hash, env.now);
      if look.file.None? then Handled(Response(404, map[], NoBody), look.after, [], [])
      else
        var bytes := look.file.value;
        Handled(Response(200, map["Content-Type" := env.detect(bytes),
                                  "Content-Length" := Decimal(|bytes|),
                                  "ETag" := hash], NoBody),
                look.after, [], [])
  }

  /** Dispatch by method and path. The constant route `/` wins over
      `/{path...}` for HEAD; OPTIONS answers the same on both. */
  function Handle(st: Store, req: Request, env: Env): (h: Handled)
    requires Valid(st)
    ensures Valid(h.after)
    ensures h.after.files.Keys == st.files.Keys || req.verb == Get
    ensures req.verb != Get ==> h.tried == [] && h.looked == []
    ensures req.verb == Options ==> h.after == st && h.response == Response(200, CorsHeaders, NoBody)
  {
    match req.verb
    case Options => Handled(Response(200, CorsHeaders, NoBody), st, [], [])
    case Head =>
      if req.path == "/" then Handled(Response(200, map[], Text("")), st, [], [])
      else HandleHead(st, req.path, env)
    case Get => HandleGet(st, req, env)
  }

  /** A GET path without a 64-digit lowercase hex run is answered 400 before
      the store or the network is touched. */
  lemma BadGetPathIs400(st: Store, req: Request, env: Env)
    requires Valid(st) && req.verb == Get && ParseGetPath(req.path).None?
    ensures var h := Handle(st, req, env);
            h.response.status == 400 && h.after == st && h.tried == [] && h.looked == []
  {
  }

  /** HEAD never fetches and never changes content: 400 when `extractHash`
      rejects the path, 404 when the blob is absent, otherwise 200 with the
      blob's length as `Content-Length`, which reads back as that length. */
  lemma HeadDecisions(st: Store, path: string, env: Env)
    requires Valid(st) && path != "/"
    ensures var h := Handle(st, Request(Head, path, None, [], []), env);
            && h.tried == [] && h.looked == [] && h.response.body == NoBody
            && h.after.files.Keys == st.files.Keys
            && (forall k :: k in st.files ==> h.after.files[k].bytes == st.files[k].bytes)
            && (ExtractHash(path).None? ==> h.response.status == 400)
            && (ExtractHash(path).Some? && ExtractHash(path).value !in st.files ==> h.response.status == 404)
            && (ExtractHash(path).Some? && ExtractHash(path).value in st.files ==>
                  var bytes := st.files[ExtractHash(path).value].bytes;
                  && h.response.status == 200
                  && "Content-Length" in h.response.headers
                  && DecimalValue(h.response.headers["Content-Length"]) == |bytes|
                  && h.response.headers["ETag"] == ExtractHash(path).value)
  {
    if ExtractHash(path).Some? && ExtractHash(path).value in st.files {
      DecimalRoundTrip(|st.files[ExtractHash(path).value].bytes|);
    }
  }

  /** A local hit is served without contacting any server: 304 exactly when
      `If-None-Match` is the quoted hash, otherwise 200 with the blob, its
      detected type and the hash as `ETag`. */
  lemma GetHitDecisions(st: Store, req: Request, env: Env)
    requires Valid(st) && req.verb == Get
    requires ParseGetPath(req.path).Some? && ParseGetPath(req.path).value.hash in st.files
    ensures var hash := ParseGetPath(req.path).value.hash;
            var bytes := st.files[hash].bytes;
            var h := Handle(st, req, env);
            && h.tried == [] && h.looked == []
            && (h.response.status == 304 <==> req.ifNoneMatch == Some(QuotedETag(hash)))
            && (h.response.status != 304 ==>
                  && h.response.status == 200 && h.response.body == Content(bytes)
                  && h.response.headers == map["Content-Type" := env.detect(bytes), "ETag" := hash])
  {
  }

  /** The `ETag` is sent without quotes but compared with quotes, so a
      client that echoes the `ETag` it was given is always sent the whole
      blob again. */
  lemma EchoedETagNeverRevalidates(st: Store, req: Request, env: Env)
    requires Valid(st) && req.verb == Get
    requires ParseGetPath(req.path).Some? && ParseGetPath(req.path).value.hash in st.files
    requires req.ifNoneMatch == Some(Handle(st, req.(ifNoneMatch := None), env).response.headers["ETag"])
    ensures Handle(st, req, env).response.status == 200
  {
    var hash := ParseGetPath(req.path).value.hash;
    GetHitDecisions(st, req.(ifNoneMatch := None), env);
    assert |QuotedETag(hash)| != |hash|;
  }

  /** On a local miss, GET answers 404 exactly when every candidate server
      fails, and then the store is as it was and every candidate was tried. */
  lemma GetMissFailsIff(st: Store, req: Request, env: Env)
    requires Valid(st) && req.verb == Get
    requires ParseGetPath(req.path).Some? && ParseGetPath(req.path).value.hash !in st.files
    ensures var t := ParseGetPath(req.path).value;
            var c := Candidates(req.xs, req.authors, env.authorServers);
            var attempt := Attempts(st, t.hash, t.extension, env);
            var h := Handle(st, req, env);
            && (h.response.status == 404 <==> forall i :: 0 <= i < |c| ==> !attempt(c[i]).ok)
            && (h.response.status == 404 ==> h.after == st && h.tried == c && h.response.body == NoBody)
  {
    var t := ParseGetPath(req.path).value;
    var attempt := Attempts(st, t.hash, t.extension, env);
    var c := Candidates(req.xs, req.authors, env.authorServers);
    var r := Retrieve(st, req.xs, req.authors, env.authorServers, attempt);
    HandleOnMiss(st, req, env);
    RetrieveFailsIff(st, req.xs, req.authors, env.authorServers, attempt);
    RetrieveServesSuccess(st, t.hash, t.extension, req.xs, req.authors, env);
    MissStatus(Handle(st, req, env), r, st);
  }

  /** The answer to a miss is 404 exactly when the walk failed, because a
      relayed status is always 2xx. */
  lemma MissStatus(h: Handled, r: Search, st: Store)
    requires r.ok ==> r.served.Some? && IsSuccessful(r.served.value.status)
    requires r.ok ==> h == Handled(Response(r.served.value.status, map["Content-Type" := r.served.value.contentType],
                                            Content(r.served.value.body)), r.after, r.tried, r.looked)
    requires !r.ok ==> h == Handled(Response(404, map[], NoBody), st, r.tried, r.looked)
    ensures h.response.status == 404 <==> !r.ok
    ensures !r.ok ==> h.after == st && h.tried == r.tried && h.response.body == NoBody
    ensures r.ok ==> && h.after == r.after && h.tried == r.tried
                     && h.response.status == r.served.value.status
                     && h.response.body == Content(r.served.value.body)
  {
  }

  /** Otherwise GET relays the stream of the first candidate that
      succeeded, after trying exactly the candidates before it. */
  lemma GetMissServesFirstSuccess(st: Store, req: Request, env: Env)
    requires Valid(st) && req.verb == Get
    requires ParseGetPath(req.path).Some? && ParseGetPath(req.path).value.hash !in st.files
    ensures var t := ParseGetPath(req.path).value;
            var c := Candidates(req.xs, req.authors, env.authorServers);
            var attempt := Attempts(st, t.hash, t.extension, env);
            var h := Handle(st, req, env);
            h.response.status != 404 ==>
              && 0 < |h.tried| <= |c| && h.tried == c[..|h.tried|]
              && (forall i :: 0 <= i < |h.tried| - 1 ==> !attempt(c[i]).ok)
              && attempt(c[|h.tried| - 1]).ok
              && attempt(c[|h.tried| - 1]).streamed.Some?
              && h.after == attempt(c[|h.tried| - 1]).after
              && h.response.status == attempt(c[|h.tried| - 1]).streamed.value.status
              && h.response.body == Content(attempt(c[|h.tried| - 1]).streamed.value.body)
  {
    var t := ParseGetPath(req.path).value;
    var attempt := Attempts(st, t.hash, t.extension, env);
    var r := Retrieve(st, req.xs, req.authors, env.authorServers, attempt);
    HandleOnMiss(st, req, env);
    RetrieveServesSuccess(st, t.hash, t.extension, req.xs, req.authors, env);
    MissStatus(Handle(st, req, env), r, st);
    RetrieveStopsAtFirstSuccess(st, req.xs, req.authors, env.authorServers, attempt);
  }

  /** On a local miss the GET route answers from the retrieval walk. */
  lemma HandleOnMiss(st: Store, req: Request, env: Env)
    requires Valid(st) && req.verb == Get
    requires ParseGetPath(req.path).Some? && ParseGetPath(req.path).value.hash !in st.files
    ensures var t := ParseGetPath(req.path).value;
            var r := Retrieve(st, req.xs, req.authors, env.authorServers, Attempts(st, t.hash, t.extension, env));
            && (r.ok ==>
                  && r.served.Some?
                  && Handle(st, req, env)
                       == Handled(Response(r.served.value.status, map["Content-Type" := r.served.value.contentType],
                                           Content(r.served.value.body)), r.after, r.tried, r.looked))
            && (!r.ok ==> Handle(st, req, env) == Handled(Response(404, map[], NoBody), st, r.tried, r.looked))
  {
    var t := ParseGetPath(req.path).value;
    RetrieveStopsAtFirstSuccess(st, req.xs, req.authors, env.authorServers, Attempts(st, t.hash, t.extension, env));
  }

  /** `/<hash>` names the same blob on both routes: HEAD answers 200 exactly
      when GET answers from the store, without contacting any server and
      without answering 404. */
  lemma HeadAgreesWithGet(st: Store, hash: string, ifNoneMatch: Option<string>, xs: seq<string>, authors: seq<string>, env: Env)
    requires Valid(st) && Hex.IsHash(hash)
    ensures var head := Handle(st, Request(Head, "/" + hash, None, [], []), env);
            var get := Handle(st, Request(Get, "/" + hash, ifNoneMatch, xs, authors), env);
            && (head.response.status == 200 <==> hash in st.files)
            && (head.response.status == 200 <==> get.tried == [] && get.response.status != 404)
  {
    BlobNameAcceptedByBothRoutes(hash);
    assert "/" + hash != "/";
    var req := Request(Get, "/" + hash, ifNoneMatch, xs, authors);
    if hash !in st.files {
      GetMissFailsIff(st, req, env);
      GetMissServesFirstSuccess(st, req, env);
    }
  }
}

=== FILE: store.dfy ===
/** `AndroidFileStore`: a flat directory of blobs named by the lowercase hex
    SHA-256 of their content, a size counter, and the eviction that, once
    the listed total passes 1 GiB, deletes oldest-first until at most
    850 MiB remain or the deletes fail. The directory is a map from
    name to blob plus the order in which `listFiles` returns the names. */
module Store {
  import opened Base
  import Hex
  import opened Blobs
  import opened Eviction

  /** What the filesystem does during one store operation: whether the
      listing taken by `pruneIfNeeded` succeeds, which `delete()` calls
      fail, and whether the listing taken by `updateSize` succeeds. */
  datatype FsOracle = FsOracle(pruneListed: bool, deleteFails: set<string>, sizeListed: bool)

  /** The blob directory and the `size` state flow. */
  datatype Store = Store(files: Files, dir: seq<string>, size: int)

  predicate Valid(st: Store) {
    Lists(st.dir, st.files)
  }

  /** The counter equals the bytes actually on disk. */
  ghost predicate SizeAccurate(st: Store) {
    st.size == Total(st.files)
  }

  /** Every file is named by the hex digest of its own content. */
  predicate Addressed(files: Files, sha: Sha256) {
    forall k :: k in files ==> k == Hex.Encode(sha(files[k].bytes))
  }

  /** `updateSize`: the sum of the listed lengths, or 0 when the listing fails. */
  function UpdateSize(st: Store, listed: bool): (r: Store)
    requires Valid(st)
    ensures r.files == st.files && r.dir == st.dir
    ensures listed ==> SizeAccurate(r)
    ensures !listed ==> r.size == 0
  {
    ListedSizeIsTotal(st.files, st.dir);
    st.(size := if listed then ListedSize(st.files, st.dir) else 0)
  }

  /** The constructor: the directory already holds `files`, then `updateSize` runs. */
  function Init(files: Files, dir: seq<string>, listed: bool): (r: Store)
    requires Lists(dir, files)
    ensures Valid(r) && r.files == files
    ensures listed ==> SizeAccurate(r)
    ensures !listed ==> r.size == 0
  {
    UpdateSize(Store(files, dir, 0), listed)
  }

  /** The names of `dir` that are still present, in listing order. */
  function Keep(dir: seq<string>, kept: Files): (r: seq<string>)
    ensures forall x :: x in r <==> x in dir && x in kept
    ensures Distinct(dir) ==> Distinct(r)
    decreases |dir|
  {
    if |dir| == 0 then []
    else
      var rest := Keep(dir[1..], kept);
      assert Distinct(dir) ==> Distinct(dir[1..]) && dir[0] !in dir[1..];
      (if dir[0] in kept then [dir[0]] else []) + rest
  }

  /** `pruneIfNeeded`: nothing when the listing fails or at most 1 GiB is
      stored; otherwise the mtime-ordered deletion loop. The counter is left
      for `updateSize`. */
  function PruneIfNeeded(st: Store, fs: FsOracle): (r: Store)
    requires Valid(st)
    ensures Valid(r) && r.size == st.size
    ensures forall n :: n in r.files ==> n in st.files && r.files[n] == st.files[n]
    ensures !fs.pruneListed || Total(st.files) <= HighWaterMark ==> r == st
  {
    ListedSizeIsTotal(st.files, st.dir);
    if !fs.pruneListed then st
    else
      var current := ListedSize(st.files, st.dir);
      if current <= HighWaterMark then st
      else
        var order := SortByMtime(st.files, st.dir);
        var kept := Evict(st.files, order, current, fs.deleteFails);
        KeepLists(st.files, st.dir, kept);
        Store(kept, Keep(st.dir, kept), st.size)
  }

  /** Dropping deleted names from a complete listing lists what is left. */
  lemma KeepLists(files: Files, dir: seq<string>, kept: Files)
    requires Lists(dir, files)
    requires forall n :: n in kept ==> n in files
    ensures Lists(Keep(dir, kept), kept)
  {
    var r := Keep(dir, kept);
    assert forall i :: 0 <= i < |r| ==> r[i] in kept by {
      forall i | 0 <= i < |r| ensures r[i] in kept {
        assert r[i] in r;
      }
    }
  }

  /** The deletion order and the eviction `PruneIfNeeded` performs once triggered. */
  lemma PruneIsEviction(st: Store, fs: FsOracle)
    requires Valid(st) && fs.pruneListed && Total(st.files) > HighWaterMark
    ensures var order := SortByMtime(st.files, st.dir);
            && Lists(order, st.files) && SortedByMtime(st.files, order)
            && PruneIfNeeded(st, fs).files == Evict(st.files, order, Total(st.files), fs.deleteFails)
  {
    ListedSizeIsTotal(st.files, st.dir);
    SortKeepsListing(st.files, st.dir);
  }

  /** Once triggered, pruning leaves at most 850 MiB, unless every file left
      is one whose delete failed. */
  lemma PruneReachesLowWater(st: Store, fs: FsOracle)
    requires Valid(st) && fs.pruneListed && Total(st.files) > HighWaterMark
    ensures var r := PruneIfNeeded(st, fs);
            Total(r.files) <= LowWaterMark || r.files.Keys <= fs.deleteFails
  {
    PruneIsEviction(st, fs);
    EvictionReachesLowWater(st.files, SortByMtime(st.files, st.dir), fs.deleteFails);
  }

  /** Pruning never deletes a file while keeping an older one it could have deleted. */
  lemma PruneOldestFirst(st: Store, fs: FsOracle)
    requires Valid(st)
    ensures var r := PruneIfNeeded(st, fs);
            forall x, y :: x in st.files && x !in r.files && y in r.files && y !in fs.deleteFails ==>
              st.files[x].mtime <= st.files[y].mtime
  {
    if fs.pruneListed && Total(st.files) > HighWaterMark {
      PruneIsEviction(st, fs);
      var order := SortByMtime(st.files, st.dir);
      EvictionOldestFirst(st.files, order, Total(st.files), fs.deleteFails);
    }
  }

  /** Writes `b` under `name`, appending the name to the listing when it is new. */
  function Put(st: Store, name: string, b: Blob): (r: Store)
    requires Valid(st)
    ensures Valid(r) && r.size == st.size
    ensures r.files.Keys == st.files.Keys + {name} && r.files[name] == b
    ensures forall k :: k in st.files && k != name ==> r.files[k] == st.files[k]
  {
    var dir := if name in st.files then st.dir else st.dir + [name];
    Store(st.files[name := b], dir, st.size)
  }

  /** Storing one blob changes the total by the difference in length. */
  lemma PutTotal(st: Store, name: string, b: Blob)
    requires Valid(st)
    ensures name !in st.files ==> Total(Put(st, name, b).files) == Total(st.files) + |b.bytes|
    ensures name in st.files ==> Total(Put(st, name, b).files) == Total(st.files) - |st.files[name].bytes| + |b.bytes|
  {
    TotalUpdate(st.files, name, b);
    if name !in st.files {
      assert st.files - {name} == st.files;
    }
  }

  /** The result of `getFileByHash`: the file's content if it exists, and the
      store after the touch. */
  datatype Lookup = Lookup(file: Option<Bytes>, after: Store)

  /** `getFileByHash`: a hit sets the file's mtime to `now`; nothing else changes. */
  function GetFileByHash(st: Store, hash: string, now: int): (r: Lookup)
    ensures r.file.Some? <==> hash in st.files
    ensures r.file.Some? ==> r.file.value == st.files[hash].bytes
    ensures r.after.dir == st.dir && r.after.size == st.size && r.after.files.Keys == st.files.Keys
    ensures forall k :: k in st.files && k != hash ==> r.after.files[k] == st.files[k]
    ensures hash in st.files ==> r.after.files[hash] == Blob(st.files[hash].bytes, now)
  {
    if hash in st.files then
      var b := st.files[hash];
      Lookup(Some(b.bytes), st.(files := st.files[hash := b.(mtime := now)]))
    else Lookup(None, st)
  }

  /** A lookup changes neither contents nor the byte total, so every store
      invariant survives it. */
  lemma LookupKeepsInvariants(st: Store, hash: string, now: int, sha: Sha256)
    ensures var a := GetFileByHash(st, hash, now).after;
            && (Valid(st) ==> Valid(a))
            && Total(a.files) == Total(st.files)
            && (Addressed(st.files, sha) ==> Addressed(a.files, sha))
  {
    if hash in st.files {
      TotalUpdate(st.files, hash, Blob(st.files[hash].bytes, now));
    }
  }

  /** The result of `saveBlob`: the name it returns and the store afterwards. */
  datatype Saved = Saved(hash: string, after: Store)

  /** `saveBlob`: names the bytes by their hex digest, writes them if that
      name is absent or refreshes its mtime if present, then prunes and
      recounts. */
  function SaveBlob(st: Store, sha: Sha256, bytes: Bytes, now: int, fs: FsOracle): (r: Saved)
    requires Valid(st)
    ensures r.hash == Hex.Encode(sha(bytes)) && Hex.IsHash(r.hash)
    ensures Valid(r.after)
    ensures fs.sizeListed ==> SizeAccurate(r.after)
    ensures !fs.sizeListed ==> r.after.size == 0
    ensures forall k :: k in r.after.files ==>
              if k == r.hash then r.after.files[k] == Blob(if k in st.files then st.files[k].bytes else bytes, now)
              else k in st.files && r.after.files[k] == st.files[k]
  {
    var hash := Hex.Encode(sha(bytes));
    Hex.DigestNameIsHash(sha(bytes));
    var written := if hash !in st.files then Put(st, hash, Blob(bytes, now))
                   else Put(st, hash, st.files[hash].(mtime := now));
    Saved(hash, UpdateSize(PruneIfNeeded(written, fs), fs.sizeListed))
  }

  /** Round trip: unless pruning can run past 1 GiB, the saved name is found
      afterwards, holding `bytes` when it was new and otherwise content with
      the same digest (when the directory was content-addressed), and every
      other file is exactly as it was. */
  lemma SaveThenGet(st: Store, sha: Sha256, bytes: Bytes, now: int, fs: FsOracle, later: int)
    requires Valid(st)
    requires !fs.pruneListed || Total(st.files) + |bytes| <= HighWaterMark
    ensures var s := SaveBlob(st, sha, bytes, now, fs);
            var g := GetFileByHash(s.after, s.hash, later);
            && g.file.Some?
            && (s.hash !in st.files ==> g.file.value == bytes)
            && (Addressed(st.files, sha) ==> sha(g.file.value) == sha(bytes))
            && s.after.files == st.files[s.hash := Blob(if s.hash in st.files then st.files[s.hash].bytes else bytes, now)]
  {
    var hash := Hex.Encode(sha(bytes));
    var written := if hash !in st.files then Put(st, hash, Blob(bytes, now))
                   else Put(st, hash, st.files[hash].(mtime := now));
    if hash !in st.files {
      PutTotal(st, hash, Blob(bytes, now));
    } else {
      PutTotal(st, hash, st.files[hash].(mtime := now));
    }
    assert PruneIfNeeded(written, fs) == written;
    if Addressed(st.files, sha) && hash in st.files {
      Hex.EncodeInjective(sha(st.files[hash].bytes), sha(bytes));
    }
  }

  /** Saving keeps the directory content-addressed. */
  lemma SaveKeepsAddressed(st: Store, sha: Sha256, bytes: Bytes, now: int, fs: FsOracle)
    requires Valid(st) && Addressed(st.files, sha)
    ensures Addressed(SaveBlob(st, sha, bytes, now, fs).after.files, sha)
  {
  }

  /** Saving the same bytes again never rewrites content: whatever the
      second save leaves under any name is what the first one left there,
      and while the blob survives the first save's pruning the second adds
      no file. */
  lemma SaveIdempotent(st: Store, sha: Sha256, bytes: Bytes, t1: int, t2: int, fs1: FsOracle, fs2: FsOracle)
    requires Valid(st)
    ensures var s1 := SaveBlob(st, sha, bytes, t1, fs1);
            var s2 := SaveBlob(s1.after, sha, bytes, t2, fs2);
            && s2.hash == s1.hash
            && (forall k :: k in s2.after.files && k in s1.after.files ==>
                  s2.after.files[k].bytes == s1.after.files[k].bytes)
            && (s1.hash in s1.after.files ==> s2.after.files.Keys <= s1.after.files.Keys)
  {
  }

  /** `moveFile`: on success the blob `tmp` replaces whatever `hash` held,
      then the store prunes and recounts; when the move throws, the
      temporary file is deleted and the exception propagates with the
      store as it was. The temporary file is gone either way. */
  function MoveFile(st: Store, tmp: Blob, hash: string, moveFails: bool, fs: FsOracle): (r: Result<Store>)
    requires Valid(st)
    ensures r.Failure? <==> moveFails
    ensures r.Success? ==> Valid(r.value)
    ensures r.Success? && fs.sizeListed ==> SizeAccurate(r.value)
    ensures r.Success? && !fs.sizeListed ==> r.value.size == 0
    ensures r.Success? ==> forall k :: k in r.value.files ==>
              if k == hash then r.value.files[k] == tmp else k in st.files && r.value.files[k] == st.files[k]
  {
    if moveFails then Failure(IoException)
    else Success(UpdateSize(PruneIfNeeded(Put(st, hash, tmp), fs), fs.sizeListed))
  }

  /** Unless pruning can run past 1 GiB, a successful move leaves exactly the
      old directory with `hash` now holding the moved blob. */
  lemma MoveThenGet(st: Store, tmp: Blob, hash: string, fs: FsOracle, later: int)
    requires Valid(st)
    requires !fs.pruneListed || Total(st.files) + |tmp.bytes| <= HighWaterMark
    ensures var r := MoveFile(st, tmp, hash, false, fs);
            && r.Success?
            && r.value.files == st.files[hash := tmp]
            && GetFileByHash(r.value, hash, later).file == Some(tmp.bytes)
  {
    PutTotal(st, hash, tmp);
    assert PruneIfNeeded(Put(st, hash, tmp), fs) == Put(st, hash, tmp);
  }

  /** The move does not look at content: a blob whose digest differs from
      the name it is moved under makes the directory no longer content-addressed. */
  lemma MoveCanBreakAddressing(st: Store, sha: Sha256, tmp: Blob, hash: string, fs: FsOracle)
    requires Valid(st)
    requires !fs.pruneListed || Total(st.files) + |tmp.bytes| <= HighWaterMark
    requires hash != Hex.Encode(sha(tmp.bytes))
    ensures var r := MoveFile(st, tmp, hash, false, fs);
            r.Success? && !Addressed(r.value.files, sha)
  {
    MoveThenGet(st, tmp, hash, fs, 0);
  }
}

=== FILE: tee.dfy ===
/** The copy loop inside `respondOutputStream` in `tryFetchAndStream`: every
    buffer read from the upstream body is fed to the SHA-256 digest, then
    written to the temporary file, then written to the client, in that order. */
module Tee {
  import opened Base

  /** Where the loop meets an exception, if anywhere: the `at`-th read of the
      upstream body, or the `at`-th write to the file or to the client. A
      client write can fail because the client went away ("Broken pipe").
      An exception after the last buffer (closing the streams when the `use`
      blocks end, or finishing the response) has no constructor of its own:
      it is written as a `ReadFault` at a final empty buffer, which for an
      empty body means `chunks` holds that one empty buffer. */
  datatype Fault =
    | NoFault
    | ReadFault(at: nat)
    | FileWriteFault(at: nat)
    | ClientWriteFault(at: nat, brokenPipe: bool)

  /** How the loop ends: the body was read to its end, or an exception left it. */
  datatype Outcome = Completed | Failed(brokenPipe: bool)

  /** What each of the three sinks received, and how the loop ended. */
  datatype Streamed = Streamed(toClient: Bytes, toFile: Bytes, toDigest: Bytes, outcome: Outcome)

  /** The bytes of a sequence of buffers read one after the other. */
  function Flatten(chunks: seq<Bytes>): Bytes
    decreases |chunks|
  {
    if |chunks| == 0 then [] else Flatten(chunks[..|chunks| - 1]) + chunks[|chunks| - 1]
  }

  predicate IsPrefix(a: Bytes, b: Bytes) {
    |a| <= |b| && b[..|a|] == a
  }

  lemma FlattenStep(chunks: seq<Bytes>, i: nat)
    requires i < |chunks|
    ensures Flatten(chunks[..i + 1]) == Flatten(chunks[..i]) + chunks[i]
  {
    assert chunks[..i + 1][..i] == chunks[..i];
  }

  /** The buffers read so far are a prefix of the whole body. */
  lemma {:induction false} FlattenPrefix(chunks: seq<Bytes>, i: nat, j: nat)
    requires i <= j <= |chunks|
    ensures IsPrefix(Flatten(chunks[..i]), Flatten(chunks[..j]))
    decreases j - i
  {
    if i < j {
      FlattenPrefix(chunks, i, j - 1);
      FlattenStep(chunks, j - 1);
    }
  }

  /** The fault fires within a body of `n` buffers. */
  predicate Fires(fault: Fault, n: nat) {
    !fault.NoFault? && fault.at < n
  }

  /** The reference description of one run of the loop: with no fault every
      sink receives the whole body; a fault at buffer `a` leaves the sinks
      that come before it in the loop one buffer ahead of those after it. */
  function Expected(chunks: seq<Bytes>, fault: Fault): (s: Streamed)
    ensures IsPrefix(s.toClient, s.toFile) && IsPrefix(s.toFile, s.toDigest)
    ensures IsPrefix(s.toDigest, Flatten(chunks))
    ensures s.outcome == Completed <==> !Fires(fault, |chunks|)
    ensures s.outcome == Completed ==> s.toClient == s.toFile == s.toDigest == Flatten(chunks)
    ensures s.outcome == Failed(true) ==> fault.ClientWriteFault?
  {
    var n := |chunks|;
    assert chunks[..n] == chunks;
    if !Fires(fault, n) then
      Streamed(Flatten(chunks), Flatten(chunks), Flatten(chunks), Completed)
    else
      var a := fault.at;
      var before := Flatten(chunks[..a]);
      var through := Flatten(chunks[..a + 1]);
      FlattenPrefix(chunks, a, a + 1);
      FlattenPrefix(chunks, a + 1, n);
      FlattenPrefix(chunks, a, n);
      match fault
      case ReadFault(_) => Streamed(before, before, before, Failed(false))
      case FileWriteFault(_) => Streamed(before, before, through, Failed(false))
      case ClientWriteFault(_, pipe) => Streamed(before, through, through, Failed(pipe))
  }

  /** The loop itself, reading `chunks` until end of stream. */
  method TeeLoop(chunks: seq<Bytes>, fault: Fault)
    returns (toClient: Bytes, toFile: Bytes, toDigest: Bytes, outcome: Outcome)
    ensures Streamed(toClient, toFile, toDigest, outcome) == Expected(chunks, fault)
  {
    toClient, toFile, toDigest := [], [], [];
    var i := 0;
    while i < |chunks|
      invariant 0 <= i <= |chunks|
      invariant toClient == Flatten(chunks[..i]) && toFile == toClient && toDigest == toClient
      invariant !Fires(fault, i)
    {
      if fault == ReadFault(i) {
        outcome := Failed(false);
        return;
      }
      var buffer := chunks[i];
      FlattenStep(chunks, i);
      toDigest := toDigest + buffer;
      if fault == FileWriteFault(i) {
        outcome := Failed(false);
        return;
      }
      toFile := toFile + buffer;
      if fault.ClientWriteFault? && fault.at == i {
        outcome := Failed(fault.brokenPipe);
        return;
      }
      toClient := toClient + buffer;
      i := i + 1;
    }
    assert chunks[..i] == chunks;
    outcome := Completed;
  }
}

=== FILE: text.dfy ===
/** The `String` operations the request code relies on: `startsWith`,
    `contains` and `Long.toString`. */
module Text {
  import opened Base

  predicate StartsWith(s: string, prefix: string) {
    |prefix| <= |s| && s[..|prefix|] == prefix
  }

  predicate EndsWith(s: string, suffix: string) {
    |suffix| <= |s| && s[|s| - |suffix|..] == suffix
  }

  /** A concatenation starts with its first part and ends with its second. */
  lemma ConcatAffixes(a: string, b: string)
    ensures StartsWith(a + b, a) && EndsWith(a + b, b)
  {
    assert (a + b)[..|a|] == a;
    assert (a + b)[|a + b| - |b|..] == b;
  }

  /** `s.startsWith(prefix)` holds exactly when `s` is `prefix` followed by
      some rest. */
  lemma StartsWithIsConcat(s: string, prefix: string)
    ensures StartsWith(s, prefix) <==> exists rest :: s == prefix + rest
  {
    if StartsWith(s, prefix) {
      assert s == prefix + s[|prefix|..];
    }
    if exists rest :: s == prefix + rest {
      var rest :| s == prefix + rest;
      assert s[..|prefix|] == prefix;
    }
  }

  lemma StartsWithTransitive(s: string, t: string, p: string)
    requires StartsWith(s, t) && StartsWith(t, p)
    ensures StartsWith(s, p)
  {
    assert s[..|p|] == s[..|t|][..|p|];
  }

  /** `t` occurs in `s` at index `i`. */
  predicate OccursAt(s: string, t: string, i: nat) {
    i + |t| <= |s| && s[i..i + |t|] == t
  }

  /** `s.contains(t)`, by scanning for the first occurrence from index `from`. */
  function ContainsFrom(s: string, t: string, from: nat): (r: bool)
    requires from <= |s|
    ensures r <==> exists i :: from <= i && OccursAt(s, t, i)
    decreases |s| - from
  {
    if OccursAt(s, t, from) then true
    else if from + |t| >= |s| then
      assert forall i :: from < i ==> !OccursAt(s, t, i);
      false
    else ContainsFrom(s, t, from + 1)
  }

  function Contains(s: string, t: string): (r: bool)
    ensures r <==> exists i :: OccursAt(s, t, i)
  {
    ContainsFrom(s, t, 0)
  }

  function DecimalDigit(n: nat): (c: char)
    requires n < 10
    ensures '0' <= c <= '9'
  {
    ('0' as int + n) as char
  }

  /** `Long.toString()` for a non-negative value: decimal, no sign, no
      leading zeros. */
  function Decimal(n: nat): (s: string)
    ensures 1 <= |s|
    ensures forall i :: 0 <= i < |s| ==> '0' <= s[i] <= '9'
    ensures |s| > 1 ==> s[0] != '0'
    decreases n
  {
    if n < 10 then [DecimalDigit(n)] else Decimal(n / 10) + [DecimalDigit(n % 10)]
  }

  /** The value a string of decimal digits denotes (most significant first). */
  function DecimalValue(s: string): nat
    requires forall i :: 0 <= i < |s| ==> '0' <= s[i] <= '9'
    decreases |s|
  {
    if |s| == 0 then 0
    else 10 * DecimalValue(s[..|s| - 1]) + (s[|s| - 1] as int - '0' as int)
  }

  /** A `Content-Length` value reads back as the length it was printed from. */
  lemma {:induction false} DecimalRoundTrip(n: nat)
    ensures DecimalValue(Decimal(n)) == n
    decreases n
  {
    if n >= 10 {
      DecimalRoundTrip(n / 10);
      var s := Decimal(n);
      assert s[..|s| - 1] == Decimal(n / 10);
    }
  }
}

=== FILE: transport.dfy ===
/** Choice of outbound HTTP client: `updateClients` in CustomHttpServer.kt
    configures a root client and a Tor client from the settings, and each
    fetch in `tryFetchAndStream` picks one of them from the URL. */
module Transport {
  import opened Text

  /** The two switches of the settings screen. */
  datatype Settings = Settings(useTor: bool, useTorForAllUrls: bool)

  /** What an OkHttp client does with a request: connect directly, or go
      through the local SOCKS proxy of the Tor service. */
  datatype Route = Direct | TorProxy

  /** The pair of clients `updateClients` leaves behind. */
  datatype Clients = Clients(root: Route, tor: Route)

  /** `updateClients`: with Tor enabled the Tor client always uses the proxy
      and the root client uses it too only when every URL goes through Tor;
      with Tor disabled both clients are the same direct client. */
  function UpdateClients(s: Settings): (c: Clients)
    ensures c.tor == TorProxy <==> s.useTor
    ensures c.root == TorProxy <==> s.useTor && s.useTorForAllUrls
  {
    if s.useTor then
      Clients(if s.useTorForAllUrls then TorProxy else Direct, TorProxy)
    else
      Clients(Direct, Direct)
  }

  /** The client choice in `tryFetchAndStream`: the Tor client for a URL that
      contains ".onion" or when every URL goes through Tor, else the root
      client. `configured` is the snapshot `updateClients` last saw and
      `current` the settings read when the fetch starts; the two can differ
      while a settings change is still being applied. */
  function RouteFor(configured: Settings, current: Settings, url: string): (r: Route)
    ensures r == TorProxy <==>
              configured.useTor
              && (Contains(url, ".onion") || current.useTorForAllUrls || configured.useTorForAllUrls)
  {
    var clients := UpdateClients(configured);
    if Contains(url, ".onion") || current.useTorForAllUrls then clients.tor else clients.root
  }

  /** With one settings snapshot: the proxy is used exactly when Tor is on
      and the URL is an onion address or every URL goes through Tor. */
  lemma ProxiedIff(s: Settings, url: string)
    ensures RouteFor(s, s, url) == TorProxy <==> s.useTor && (Contains(url, ".onion") || s.useTorForAllUrls)
  {
  }

  /** With Tor switched off, even an onion URL is fetched directly. */
  lemma OnionGoesDirectWithoutTor(s: Settings, url: string)
    requires !s.useTor
    ensures RouteFor(s, s, url) == Direct
  {
  }
}
